=== FILE: README.md ===
# Server activity dashboard — a Dafny model of its report logic

The dashboard polls a Prometheus-style metrics service for the CPU, RAM and disk
utilisation, network traffic, uptime and certificate expiry of every monitored
server ("instance"). It keeps one list per series in its `AppComponent`. It
turns them into two reports: a chat message for the team's channel and a
paginated PDF.

This project models the logic inside that component:

- `wrappers.dfy`: `Option`.
- `decimal.dfy`: the decimal rendering of a natural number, as a template
  literal prints it.
- `uptime.dfy`: `convertUptime`. Seconds become years, months, days, hours and
  minutes on a fixed 365-day year and 30-day month, and leftover seconds are
  dropped. `ConvertUptime` is a method that reduces the running seconds step by
  step, as the source does with `%=`. It is proved equal to a breakdown that is
  characterised independently (`IsBreakdown`) and shown to be unique.
- `series.dfy`: the sample records, the four first-match lookups by instance
  with their fallbacks, and the left join of the download series with the
  upload series.
- `report.dfy`: the message `sendTele` builds, as a pure function of the
  collections, the form values and the date. The lemmas cover:
  - where each numbered block sits in the message;
  - that the message starts with the header and ends with the sections;
  - how many lines it has;
  - which fallbacks it prints;
  - a single-host example.
- `pagination.dfy`: the vertical cursor of `createPdf` as a state machine over
  (height, page). The lemmas cover:
  - every block starts between the top margin (10) and the break line (260);
  - the page count is one plus the number of breaks;
  - the last line of an instance block can sit 25 below the break line, and a
    long section can reserve space past the bottom of the page. The model does
    not claim that every line fits.
- `app.dfy`: the `AppComponent` class. Its six collection fields are replaced
  by the fetch handlers only on a `success` answer. The class also has
  `sendTele` up to the send call, `generatePDF` and `createPdf`. The
  `createPdf` loops are proved against `Pagination.Run` and
  `Pagination.Placements`.

Numbers are `real`. `parseFloat`, `toFixed(1)` and the wrapped-line count of
`splitTextToSize` are function parameters. So is the rendering of a certificate
expiry, `convertEpochToDate(parseFloat(..))`, which yields nothing where
`toISOString` throws. Uptime seconds are parsed to a `nat` by a parameter. An
answer the HTTP client could not deliver (it resolves to `undefined`) is
`None`.

Two behaviours of the code that the model keeps as they are:

- The PDF cursor is compared with the break line only before each block, never
  inside one. The lines of a block can therefore run below the break line
  (`Pagination.SeventhInstanceBelowBreakLine`), and a long section can reserve
  space past the bottom of the page (`Pagination.LongSectionPassesPageBottom`).
  The page count is one plus the number of breaks (`Pagination.PagesCountBreaks`).
- An answer the client could not deliver does not lead to the error alert: the
  handler reads `.status` of `undefined` and raises, leaving its collection as
  it was (`App.OutcomeOf`). In the network handler, `&&` short-circuits, so an
  undeliverable upload answer raises only when the download answer succeeded.
  The certificate handler also raises when an expiry date cannot be rendered
  (`App.SslOutcome`), and `sendTele` then sends nothing.

## Model

| member | source | states |
|---|---|---|
| Decimal.NatToString | src/app/app.component.ts:202 | the number is printed as decimal digits with no leading zero, and reading the digits back gives the number |
| Uptime.Breakdown | src/app/app.component.ts:123-137 | years, months, days, hours and minutes account for every second except the leftover `s % 60`; days < 30, hours < 24, minutes < 60, months ≤ 12, and the part below a year is less than a year |
| Uptime.BreakdownUnique | src/app/app.component.ts:123-137 | any duration meeting those bounds equals the computed breakdown, so the breakdown is the unique one |
| Uptime.LeftoverSecondsIgnored | src/app/app.component.ts:136-139 | `s` and `s` rounded down to a whole minute break down alike: the leftover seconds never show |
| Uptime.UptimeText | src/app/app.component.ts:139 | the rendered uptime is never empty |
| Uptime.ConvertUptime | src/app/app.component.ts:123-140 | the step-by-step `%=` computation returns the text of the unique breakdown of its input |
| Uptime.UptimeOfZero | src/app/app.component.ts:123-139 | 0 seconds renders as "0 Tahun 0 Bulan 0 hari 0 Jam 0 Menit" |
| Uptime.UptimeOfDayHourMinuteSecond | src/app/app.component.ts:123-139 | 90061 seconds renders as "0 Tahun 0 Bulan 1 hari 1 Jam 1 Menit" (the second is dropped) |
| Series.Find | src/app/app.component.ts:162 | finds a position iff the instance occurs, and the position is that of the first entry with that instance |
| Series.UsageFor | src/app/app.component.ts:161-169 | RAM/disk lookup: the usage of the first entry for the instance, or 0 when no entry has it |
| Series.UptimeFor | src/app/app.component.ts:171-174 | uptime lookup: the text of the first entry for the instance, or "Data tidak tersedia" when no entry has it |
| Series.NetworkFor | src/app/app.component.ts:176-179 | network lookup: download and upload of the first entry for the instance, or both 0 when no entry has it |
| Series.UploadFor | src/app/app.component.ts:79-80 | the upload rate of the first upload entry for the instance in MB/s, or 0 when none matches |
| Series.JoinNetwork | src/app/app.component.ts:76-88 | one entry per download entry, same order and instance; download is the parsed value in MB/s; upload comes from the first matching upload entry or is 0 (then total equals download); total = download + upload |
| Series.JoinedTraffic | src/app/app.component.ts:76-88 | looking an instance up in the joined series gives its first download entry's rate and the upload the join chose; an instance missing from the download series reads as no traffic |
| Series.SslSeries | src/app/app.component.ts:109-121 | the certificate map raises (gives nothing) iff some entry's expiry date cannot be rendered; otherwise it keeps every entry in order, with its instance and rendered date |
| Report.OrNotAvailable | src/app/app.component.ts:223-229 | `value \|\| 'N/A'` is never empty and keeps any non-empty value |
| Report.Header | src/app/app.component.ts:184-189 | the header opens with "REPORT ACTIVITY SYSNET " on its own line, then "Periode : " followed by the date |
| Report.InstanceBlocks | src/app/app.component.ts:192-209 | exactly one block per CPU entry, and block i opens with the title "i+1. instance" of the i-th entry |
| Report.SslBlocks | src/app/app.component.ts:214-218 | exactly one block per certificate entry, and block j opens with the title "j+1. instance" of the j-th entry |
| Report.BlockInReport | src/app/app.component.ts:221-229 | CPU block i sits right after the header and the blocks before it; the message starts with the header and ends with the sections |
| Report.CertificateInReport | src/app/app.component.ts:221-222 | certificate block j sits after all CPU blocks, the SSL title and the certificate blocks before it |
| Report.SslTitleBetween | src/app/app.component.ts:221-223 | right after the joined CPU blocks the message holds exactly "*Masa Tenggang SSL:*\n", and right after the joined certificate blocks it holds the sections and nothing else |
| Report.Message | src/app/app.component.ts:221-229 | the message sent opens with the header and closes with the four free-text sections |
| Report.InstanceBlocksIgnoreSsl | src/app/app.component.ts:192-211 | building the CPU blocks before the certificate refetch gives the same blocks as after it |
| Report.HeaderNewlines | src/app/app.component.ts:184-189 | the header is six lines |
| Report.InstanceBlockNewlines | src/app/app.component.ts:202-208 | a CPU block is seven lines when its instance and figures hold no line break |
| Report.SslBlockNewlines | src/app/app.component.ts:215-217 | a certificate block is three lines |
| Report.SectionsNewlines | src/app/app.component.ts:223-229 | the four sections take seven lines |
| Report.AssembleNewlines | src/app/app.component.ts:221-229 | the message's line count is the header's, plus k per CPU block, plus one for the SSL title, plus m per certificate block, plus the sections' |
| Report.MessageLineCount | src/app/app.component.ts:184-229 | the message has 6 + 7·(CPU entries) + 1 + 3·(certificates) + 7 lines: one block per entry, no more |
| Report.MissingInstancePrintsFallback | src/app/app.component.ts:198-200 | an instance missing from RAM or disk prints the formatted 0; one missing from uptime prints "Data tidak tersedia"; one missing from network totals 0 |
| Report.UptimeGuardNeverFires | src/app/app.component.ts:200 | with non-empty stored uptimes, `\|\| 'N/A'` never replaces the uptime lookup |
| App.StoredUptimePrinted | src/app/app.component.ts:200 | under the component's invariant (every stored uptime is a rendered, non-empty text), the uptime printed for an instance is exactly the lookup's result |
| Report.SingleHostLookups | src/app/app.component.ts:161-179 | for one host present in every series, each lookup finds that host's own entry |
| Report.SingleHostBlock | src/app/app.component.ts:192-209 | one host with CPU 55.4, RAM 70.0, network 2.0 + 1.0, disk 30.0 and a stored uptime gives exactly the text "1. host1\n   - CPU Used: 55.4%\n   - RAM Used: 70.0%\n   - Total Network Usage: 3.0 MB/s\n   - Disk Usage: 30.0 %\n   - Uptime: 0 Tahun 0 Bulan 1 hari 0 Jam 0 Menit\n\n" |
| Report.HeaderExample | src/app/app.component.ts:184-189 | date "11/10/2026" and shift "pagi" give exactly the header text "REPORT ACTIVITY SYSNET \nPeriode : 11/10/2026 \nShift : pagi \n \nDaily Activity \n*Data All Server:*\n" |
| Report.SslBlockExample | src/app/app.component.ts:214-217 | the first certificate entry of "host1" expiring "2026-12-31 23:59:59" gives exactly "1. host1\n   - SSL Expiry: 2026-12-31 23:59:59\n\n" |
| Report.SectionsExample | src/app/app.component.ts:223-229 | an empty issue and reminder, ticket "T-12" and activity "patching" give exactly "Issue/Request from Internal: N/A\n\nTicketing Open: T-12\n\nActivity: patching\n\nReminder: N/A\n": an empty field prints as "N/A", a filled one as typed |
| Pagination.Advance | src/app/app.component.ts:317-371 | every block moves the cursor down by at least one line step |
| Pagination.Place | src/app/app.component.ts:313-316 | a placed block never starts below the break line, and at most one page is added; for a cursor below the top margin, the block starts at or below the top margin, and exactly at it iff a page was added |
| Pagination.Step | src/app/app.component.ts:313-371 | laying out one block adds a page exactly when the cursor was beyond the break line; from a cursor at or below the top margin it ends strictly below it, and never more than the block's advance below the break line |
| Pagination.Run | src/app/app.component.ts:301-372 | starting at height 50 on page 1, after any number of blocks the cursor lies strictly below the top margin, on page 1 or later |
| Pagination.PlacedOnPage | src/app/app.component.ts:313-316 | every block starts at a height in [10, 260] |
| Pagination.AtTopIffNewPage | src/app/app.component.ts:313-363 | at every one of the four break checks, a block goes to the top margin exactly when it opens a new page, and it opens at most one |
| Pagination.PagesCountBreaks | src/app/app.component.ts:301-372 | the number of pages is one plus the number of page breaks |
| Pagination.InstanceLinesBound | src/app/app.component.ts:317-327 | the last line of an instance block is at most 25 below the break line (285) |
| Pagination.SeventhInstanceBelowBreakLine | src/app/app.component.ts:301-329 | the seventh instance block starts on page 1 at 260, so its last line is drawn at 285, below the break line |
| Pagination.LongSectionPassesPageBottom | src/app/app.component.ts:364-371 | a section that starts at 260 and wraps to 8 lines moves the cursor past the 297 mm page bottom |
| Pagination.NoBreakWhileAbove | src/app/app.component.ts:313-316 | while the cursor never passes the break line, everything stays on page 1 |
| App.OutcomeOf | src/app/app.component.ts:37-44 | a handler that reads one answer replaces its collection iff the answer arrived with status "success", and raises iff the answer is undefined |
| App.NetworkOutcome | src/app/app.component.ts:75-91 | the network handler replaces iff both answers succeeded; the upload answer matters only when the download answer succeeded, and an undefined upload answer after a successful download raises |
| App.SslOutcome | src/app/app.component.ts:106-121 | the certificate handler replaces iff the answer succeeded and every expiry date renders; it raises iff the answer is undefined or it succeeded with some date that cannot be rendered; it alerts iff the status is not "success" |
| App.AppComponent.constructor | src/app/app.component.ts:18-33 | all six collections start empty and the date is fixed on creation |
| App.AppComponent.GetCpuUsage | src/app/app.component.ts:35-45 | on success the CPU list holds every answer entry, in order, with its instance and parsed value; it is otherwise unchanged |
| App.AppComponent.GetRamUsage | src/app/app.component.ts:47-57 | on success the RAM list holds every answer entry, in order, with its instance and parsed value; it is otherwise unchanged |
| App.AppComponent.GetDiskUsage | src/app/app.component.ts:59-69 | on success the disk list holds every answer entry, in order, with its instance and parsed value; it is otherwise unchanged |
| App.AppComponent.GetNetworkUsage | src/app/app.component.ts:71-92 | the network list becomes the join of the two answers when both succeed and is otherwise unchanged |
| App.AppComponent.GetUptime | src/app/app.component.ts:94-104 | on success the uptime list holds every answer entry, in order, with its instance and the convertUptime text of its seconds, computed entry by entry; it is otherwise unchanged; stored uptimes stay non-empty |
| App.AppComponent.GetSsl | src/app/app.component.ts:106-121 | the outcome is `SslOutcome`; when it replaces, the certificate list holds every answer entry, in order, with its instance and rendered expiry date; it is otherwise unchanged, including when a date cannot be rendered |
| App.AppComponent.SendTele | src/app/app.component.ts:181-237 | no message when the form is invalid; for a valid form, no message iff the certificate refetch raises (undefined answer or a date that cannot be rendered); otherwise the message built from the collections after the refetch |
| App.AppComponent.GeneratePdf | src/app/app.component.ts:256-276 | a layout only when the form is valid, and then the one `createPdf` produces |
| App.AppComponent.DrawBlock | src/app/app.component.ts:313-328 | drawing one block after the blocks so far: the page-break check, then the block's advance, as one step of `Pagination.Run` |
| App.AppComponent.DrawEntries | src/app/app.component.ts:303-349 | the loop over CPU or certificate entries advances the cursor and placements through those blocks |
| App.AppComponent.DrawSections | src/app/app.component.ts:359-372 | the loop over the four sections finishes the layout |
| App.AppComponent.CreatePdf | src/app/app.component.ts:279-375 | the placements of the blocks and the final cursor are exactly `Pagination.Placements` and `Pagination.Run` of the report's blocks |

## Left out

- The HTTP client (`app.service.ts`), including the message POST: answers are inputs. A failed send is only logged, so it is not modelled.
- The six unordered fetches fired by `ngOnInit`: each handler is a separate method, and any order of calls is possible.
- Floating point: `parseFloat`, `toFixed(1)` and the division by 1024·1024 are over `real`. Rounding is left to the abstract formatter.
- `convertEpochToDate` and `toLocaleDateString` (the `Date` library): a parameter that yields nothing where the date cannot be rendered, and a constructor argument.
- jsPDF: font sizes, `text`, `addPage` and `save`. The fixed title lines at heights 20–45 and the text inside each block are not modelled; only the cursor and the page of each block are.
- `splitTextToSize`: the number of wrapped lines is a parameter.
- Alerts, Swal notifications and the `finally` blocks that always report success: user interface only.
- Angular form validation: validity is a boolean input.
- Decimal.NatToString: numbers of 10^21 or more print in exponent form in JavaScript (such as "1e+21"); only the digit form below that bound is modelled.
- Uptime.ConvertUptime: seconds are a natural number, the floor of the parsed value. Every divisor is a whole number of seconds, so a non-negative fractional input prints as its floor does and is covered. Negative and NaN inputs are not modelled.
- App.AppComponent.SendTele: the message is the one handed to the send call. Whether delivery succeeded is not observable in the source and is not modelled.

=== FILE: app.dfy ===
/**
 * The dashboard component: six collections that the fetch handlers replace
 * when the metrics service answers with success, the chat report built from
 * them, and the layout of the PDF report.
 */
module App {
  import opened Wrappers
  import opened Series
  import Uptime
  import Report
  import Pagination

  /** The status of a successful query answer. */
  const Success := "success"

  /**
   * What a fetch handler did: replaced its collection, showed the error
   * alert, or failed on an answer the service could not deliver (reading the
   * status of an undefined answer raises).
   */
  datatype Outcome = Replaced | Alerted | Raised

  /** The outcome of a handler that reads one answer. */
  function OutcomeOf(data: Option<Response>): (o: Outcome)
    ensures o == Replaced <==> data.Some? && data.value.status == Success
    ensures o == Raised <==> data.None?
  {
    match data
    case None => Raised
    case Some(response) => if response.status == Success then Replaced else Alerted
  }

  /**
   * The outcome of the network handler: the upload answer is looked at only
   * when the download answer succeeded.
   */
  function NetworkOutcome(download: Option<Response>, upload: Option<Response>): (o: Outcome)
    ensures o == Replaced <==> OutcomeOf(download) == Replaced && OutcomeOf(upload) == Replaced
    ensures OutcomeOf(download) != Replaced ==> o == OutcomeOf(download)
    ensures OutcomeOf(download) == Replaced && upload.None? ==> o == Raised
  {
    match OutcomeOf(download)
    case Replaced => OutcomeOf(upload)
    case other => other
  }

  /**
   * The outcome of the certificate handler: besides an undefined answer, an
   * entry whose expiry date cannot be rendered makes the map raise.
   */
  function SslOutcome(data: Option<Response>, expiry: string -> Option<string>): (o: Outcome)
    ensures o == Replaced <==> OutcomeOf(data) == Replaced && SslSeries(data.value.result, expiry).Some?
    ensures o == Alerted <==> OutcomeOf(data) == Alerted
    ensures o == Raised <==>
      || data.None?
      || (data.value.status == Success
          && exists i :: 0 <= i < |data.value.result| && expiry(data.value.result[i].value).None?)
  {
    match OutcomeOf(data)
    case Replaced => if SslSeries(data.value.result, expiry).Some? then Replaced else Raised
    case other => other
  }

  /** The `result.map(..)` of the uptime handler: the instance and its rendered uptime, in order. */
  function UptimeSeries(rows: seq<RawSample>, parseSeconds: string -> nat): seq<UptimeSample> {
    seq(|rows|, i requires 0 <= i < |rows| =>
      UptimeSample(rows[i].instance, Uptime.UptimeText(Uptime.Breakdown(parseSeconds(rows[i].value)))))
  }

  /** The form values of the four sections of the PDF, in order. */
  function SectionValues(form: Report.FormValue): seq<string> {
    [form.issue, form.ticket, form.activity, form.reminder]
  }

  /** How many lines each section's value, or "N/A" when it is blank, wraps to. */
  function SectionLines(form: Report.FormValue, lineCount: string -> nat): seq<nat> {
    var values := SectionValues(form);
    seq<nat>(|values|, k requires 0 <= k < |values| => lineCount(Report.OrNotAvailable(values[k])))
  }

  /** The blocks of the PDF; each section's value, or "N/A" when it is blank, wraps to lineCount lines. */
  function PdfBlocks(cpuEntries: nat, sslEntries: nat, form: Report.FormValue, lineCount: string -> nat)
    : seq<Pagination.Block>
  {
    Pagination.ReportBlocks(cpuEntries, sslEntries, SectionLines(form, lineCount))
  }

  /** With the component's invariant, the `|| 'N/A'` after the uptime lookup never replaces a stored uptime. */
  lemma StoredUptimePrinted(c: AppComponent, instance: string)
    requires c.Valid()
    ensures Report.UptimeField(c.Current(), instance) == UptimeFor(c.uptime, instance)
  {
    Report.UptimeGuardNeverFires(c.Current(), instance);
  }

  /** Where the PDF's blocks went, and where the cursor ended. */
  datatype Layout = Layout(placements: seq<Pagination.Cursor>, end: Pagination.Cursor)

  class AppComponent {
    var cpuUsage: seq<UsageSample>
    var ramUsage: seq<UsageSample>
    var diskUsage: seq<UsageSample>
    var networkUsage: seq<NetworkSample>
    var uptime: seq<UptimeSample>
    var ssl: seq<SslSample>
    /** The date the component was created, already rendered. */
    var currentDate: string

    /** Every stored uptime text is a rendered uptime, hence not empty; the report relies on it (StoredUptimePrinted). */
    ghost predicate Valid()
      reads this`uptime
    {
      forall i :: 0 <= i < |uptime| ==> uptime[i].usage != ""
    }

    /** The collections as the report reads them. */
    function Current(): Report.Snapshot
      reads this
    {
      Report.Snapshot(cpuUsage, ramUsage, diskUsage, networkUsage, uptime, ssl)
    }

    /** Every collection starts empty; the date is rendered once, on creation. */
    constructor (currentDate: string)
      ensures Valid()
      ensures cpuUsage == [] && ramUsage == [] && diskUsage == [] && networkUsage == []
      ensures uptime == [] && ssl == []
      ensures this.currentDate == currentDate
    {
      cpuUsage, ramUsage, diskUsage, networkUsage, uptime, ssl := [], [], [], [], [], [];
      this.currentDate := currentDate;
    }

    method GetCpuUsage(data: Option<Response>, parseFloat: string -> real) returns (outcome: Outcome)
      modifies this`cpuUsage
      ensures outcome == OutcomeOf(data)
      ensures outcome == Replaced ==> data.Some? && cpuUsage == UsageSeries(data.value.result, parseFloat)
      ensures outcome == Replaced ==> |cpuUsage| == |data.value.result| && forall i :: 0 <= i < |cpuUsage| ==>
        cpuUsage[i] == UsageSample(data.value.result[i].instance, parseFloat(data.value.result[i].value))
      ensures outcome != Replaced ==> cpuUsage == old(cpuUsage)
    {
      if data.None? {
        return Raised;
      }
      if data.value.status == Success {
        cpuUsage := UsageSeries(data.value.result, parseFloat);
        outcome := Replaced;
      } else {
        outcome := Alerted;
      }
    }

    method GetRamUsage(data: Option<Response>, parseFloat: string -> real) returns (outcome: Outcome)
      modifies this`ramUsage
      ensures outcome == OutcomeOf(data)
      ensures outcome == Replaced ==> data.Some? && ramUsage == UsageSeries(data.value.result, parseFloat)
      ensures outcome == Replaced ==> |ramUsage| == |data.value.result| && forall i :: 0 <= i < |ramUsage| ==>
        ramUsage[i] == UsageSample(data.value.result[i].instance, parseFloat(data.value.result[i].value))
      ensures outcome != Replaced ==> ramUsage == old(ramUsage)
    {
      if data.None? {
        return Raised;
      }
      if data.value.status == Success {
        ramUsage := UsageSeries(data.value.result, parseFloat);
        outcome := Replaced;
      } else {
        outcome := Alerted;
      }
    }

    method GetDiskUsage(data: Option<Response>, parseFloat: string -> real) returns (outcome: Outcome)
      modifies this`diskUsage
      ensures outcome == OutcomeOf(data)
      ensures outcome == Replaced ==> data.Some? && diskUsage == UsageSeries(data.value.result, parseFloat)
      ensures outcome == Replaced ==> |diskUsage| == |data.value.result| && forall i :: 0 <= i < |diskUsage| ==>
        diskUsage[i] == UsageSample(data.value.result[i].instance, parseFloat(data.value.result[i].value))
      ensures outcome != Replaced ==> diskUsage == old(diskUsage)
    {
      if data.None? {
        return Raised;
      }
      if data.value.status == Success {
        diskUsage := UsageSeries(data.value.result, parseFloat);
        outcome := Replaced;
      } else {
        outcome := Alerted;
      }
    }

    /** Both answers are awaited; the joined series replaces the collection only when both succeeded. */
    method GetNetworkUsage(download: Option<Response>, upload: Option<Response>, parseFloat: string -> real)
      returns (outcome: Outcome)
      modifies this`networkUsage
      ensures outcome == NetworkOutcome(download, upload)
      ensures outcome == Replaced ==>
        download.Some? && upload.Some? && networkUsage == JoinNetwork(download.value.result, upload.value.result, parseFloat)
      ensures outcome != Replaced ==> networkUsage == old(networkUsage)
    {
      if download.None? {
        return Raised;
      }
      if download.value.status != Success {
        return Alerted;
      }
      if upload.None? {
        return Raised;
      }
      if upload.value.status == Success {
        networkUsage := JoinNetwork(download.value.result, upload.value.result, parseFloat);
        outcome := Replaced;
      } else {
        outcome := Alerted;
      }
    }

    /** Each entry's seconds are rendered by convertUptime, one entry after the other. */
    method GetUptime(data: Option<Response>, parseSeconds: string -> nat) returns (outcome: Outcome)
      requires Valid()
      modifies this`uptime
      ensures Valid()
      ensures outcome == OutcomeOf(data)
      ensures outcome == Replaced ==> data.Some? && uptime == UptimeSeries(data.value.result, parseSeconds)
      ensures outcome == Replaced ==> |uptime| == |data.value.result| && forall i :: 0 <= i < |uptime| ==>
        uptime[i] == UptimeSample(data.value.result[i].instance,
                                  Uptime.UptimeText(Uptime.Breakdown(parseSeconds(data.value.result[i].value))))
      ensures outcome != Replaced ==> uptime == old(uptime)
    {
      if data.None? {
        return Raised;
      }
      if data.value.status != Success {
        return Alerted;
      }
      var rows := data.value.result;
      var series: seq<UptimeSample> := [];
      var i := 0;
      while i < |rows|
        invariant 0 <= i <= |rows|
        invariant |series| == i
        invariant forall j :: 0 <= j < i ==>
          series[j] == UptimeSample(rows[j].instance, Uptime.UptimeText(Uptime.Breakdown(parseSeconds(rows[j].value))))
      {
        var text := Uptime.ConvertUptime(parseSeconds(rows[i].value));
        series := series + [UptimeSample(rows[i].instance, text)];
        i := i + 1;
      }
      uptime := series;
      outcome := Replaced;
    }

    /** expiry renders an entry's expiry date, or is None where `convertEpochToDate` throws. */
    method GetSsl(data: Option<Response>, expiry: string -> Option<string>) returns (outcome: Outcome)
      modifies this`ssl
      ensures outcome == SslOutcome(data, expiry)
      ensures outcome == Replaced ==> data.Some? && Some(ssl) == SslSeries(data.value.result, expiry)
      ensures outcome == Replaced ==> |ssl| == |data.value.result| && forall i :: 0 <= i < |ssl| ==>
        ssl[i] == SslSample(data.value.result[i].instance, expiry(data.value.result[i].value).value)
      ensures outcome != Replaced ==> ssl == old(ssl)
    {
      if data.None? {
        return Raised;
      }
      if data.value.status != Success {
        return Alerted;
      }
      var series := SslSeries(data.value.result, expiry);
      if series.None? {
        return Raised;
      }
      ssl := series.value;
      outcome := Replaced;
    }

    /**
     * sendTele up to the send call: the message handed to the messaging
     * service, or None when the form is invalid or the certificate refresh
     * raised. The CPU blocks are built before the refresh, the certificate
     * blocks after it.
     */
    method SendTele(formValid: bool, form: Report.FormValue, sslData: Option<Response>,
                    expiry: string -> Option<string>, toFixed: real -> string)
      returns (message: Option<string>)
      modifies this`ssl
      ensures !formValid ==> message == None && ssl == old(ssl)
      ensures formValid ==> ssl == (if SslOutcome(sslData, expiry) == Replaced
                                    then SslSeries(sslData.value.result, expiry).value
                                    else old(ssl))
      ensures formValid ==> (message == None <==> SslOutcome(sslData, expiry) == Raised)
      ensures message.Some? ==> message.value == Report.Message(Current(), form, currentDate, toFixed)
    {
      if !formValid {
        return None;
      }
      var header := Report.Header(currentDate, form.shift);
      var blocks := Report.InstanceBlocks(Current(), toFixed);
      ghost var before := Current();
      var refreshed := GetSsl(sslData, expiry);
      if refreshed == Raised {
        return None;
      }
      Report.InstanceBlocksIgnoreSsl(before, ssl, toFixed);
      assert Current() == before.(ssl := ssl);
      var certificates := Report.SslBlocks(Current());
      message := Some(Report.Assemble(header, blocks, certificates, Report.Sections(form)));
    }

    /** generatePDF: the layout of the PDF when the form is valid, and none otherwise. */
    method GeneratePdf(formValid: bool, form: Report.FormValue, lineCount: string -> nat)
      returns (layout: Option<Layout>)
      ensures !formValid ==> layout == None
      ensures formValid ==> layout == Some(Layout(Pagination.Placements(PdfBlocks(|cpuUsage|, |ssl|, form, lineCount)),
                                                  Pagination.Run(PdfBlocks(|cpuUsage|, |ssl|, form, lineCount))))
    {
      if formValid {
        var l := CreatePdf(form, lineCount);
        layout := Some(l);
      } else {
        layout := None;
      }
    }

    /**
     * One block of createPdf: a cursor beyond the break line first adds a page
     * and goes back to the top margin; the block is drawn there, and each of
     * its lines moves the cursor down.
     */
    static method DrawBlock(currentY: int, page: nat, placements: seq<Pagination.Cursor>,
                            ghost blocks: seq<Pagination.Block>, ghost drawn: nat, b: Pagination.Block)
      returns (y: int, newPage: nat, placed: seq<Pagination.Cursor>)
      requires drawn < |blocks| && blocks[drawn] == b
      requires Pagination.Cursor(currentY, page) == Pagination.Run(blocks[..drawn])
      requires placements == Pagination.Placements(blocks[..drawn])
      ensures Pagination.Cursor(y, newPage) == Pagination.Run(blocks[..drawn + 1])
      ensures placed == Pagination.Placements(blocks[..drawn + 1])
    {
      y, newPage := currentY, page;
      if y > Pagination.BreakLine {
        newPage := newPage + 1;
        y := Pagination.TopMargin;
      }
      placed := placements + [Pagination.Cursor(y, newPage)];
      match b {
        case Instance =>
          y := y + 5;   // title, CPU, RAM, network and disk lines
          y := y + 5;
          y := y + 5;
          y := y + 5;
          y := y + 5;
          y := y + 10;  // uptime line and the gap after the block
        case SslHeading =>
          y := y + 5;
        case SslEntry =>
          y := y + 5;   // title line
          y := y + 10;  // expiry line and the gap after the block
        case Section(lines) =>
          y := y + 5;   // section title
          y := y + (lines + 1) * 5;
      }
      Pagination.TakeOneMore(blocks, drawn);
      Pagination.StepInto(blocks[..drawn], b);
    }

    /** The `forEach` over the CPU or certificate entries: count blocks of one kind, one after the other. */
    static method DrawEntries(currentY: int, page: nat, placements: seq<Pagination.Cursor>,
                              ghost blocks: seq<Pagination.Block>, ghost drawn: nat, count: nat, kind: Pagination.Block)
      returns (y: int, newPage: nat, placed: seq<Pagination.Cursor>)
      requires drawn + count <= |blocks|
      requires forall t :: drawn <= t < drawn + count ==> blocks[t] == kind
      requires Pagination.Cursor(currentY, page) == Pagination.Run(blocks[..drawn])
      requires placements == Pagination.Placements(blocks[..drawn])
      ensures Pagination.Cursor(y, newPage) == Pagination.Run(blocks[..drawn + count])
      ensures placed == Pagination.Placements(blocks[..drawn + count])
    {
      y, newPage, placed := currentY, page, placements;
      var i := 0;
      while i < count
        invariant 0 <= i <= count
        invariant Pagination.Cursor(y, newPage) == Pagination.Run(blocks[..drawn + i])
        invariant placed == Pagination.Placements(blocks[..drawn + i])
      {
        y, newPage, placed := DrawBlock(y, newPage, placed, blocks, drawn + i, kind);
        i := i + 1;
      }
    }

    /** The `forEach` over the four sections: each value, or "N/A" when it is blank, wraps to lineCount lines. */
    static method DrawSections(currentY: int, page: nat, placements: seq<Pagination.Cursor>,
                               ghost blocks: seq<Pagination.Block>, ghost drawn: nat,
                               sections: seq<string>, lineCount: string -> nat)
      returns (y: int, newPage: nat, placed: seq<Pagination.Cursor>)
      requires drawn + |sections| == |blocks|
      requires forall k :: 0 <= k < |sections| ==>
        blocks[drawn + k] == Pagination.Section(lineCount(Report.OrNotAvailable(sections[k])))
      requires Pagination.Cursor(currentY, page) == Pagination.Run(blocks[..drawn])
      requires placements == Pagination.Placements(blocks[..drawn])
      ensures Pagination.Cursor(y, newPage) == Pagination.Run(blocks)
      ensures placed == Pagination.Placements(blocks)
    {
      y, newPage, placed := currentY, page, placements;
      var k := 0;
      while k < |sections|
        invariant 0 <= k <= |sections|
        invariant Pagination.Cursor(y, newPage) == Pagination.Run(blocks[..drawn + k])
        invariant placed == Pagination.Placements(blocks[..drawn + k])
      {
        var lines := lineCount(Report.OrNotAvailable(sections[k]));
        y, newPage, placed := DrawBlock(y, newPage, placed, blocks, drawn + k, Pagination.Section(lines));
        k := k + 1;
      }
      assert blocks[..drawn + k] == blocks;
    }

    /**
     * createPdf's cursor: the CPU blocks from the first block height on, the
     * certificate title, the certificate blocks and the four sections.
     */
    method CreatePdf(form: Report.FormValue, lineCount: string -> nat) returns (layout: Layout)
      ensures layout.placements == Pagination.Placements(PdfBlocks(|cpuUsage|, |ssl|, form, lineCount))
      ensures layout.end == Pagination.Run(PdfBlocks(|cpuUsage|, |ssl|, form, lineCount))
    {
      ghost var blocks := PdfBlocks(|cpuUsage|, |ssl|, form, lineCount);
      var currentY, page, placements := Pagination.FirstBlockY, 1, [];
      assert blocks[..0] == [];
      currentY, page, placements := DrawEntries(currentY, page, placements, blocks, 0, |cpuUsage|, Pagination.Instance);
      currentY, page, placements := DrawBlock(currentY, page, placements, blocks, |cpuUsage|, Pagination.SslHeading);
      currentY, page, placements :=
        DrawEntries(currentY, page, placements, blocks, |cpuUsage| + 1, |ssl|, Pagination.SslEntry);
      currentY, page, placements :=
        DrawSections(currentY, page, placements, blocks, |cpuUsage| + 1 + |ssl|, SectionValues(form), lineCount);
      layout := Layout(placements, Pagination.Cursor(currentY, page));
    }
  }
}

=== FILE: decimal.dfy ===
/**
 * Decimal rendering of natural numbers, the way a JavaScript template
 * literal `${n}` prints a non-negative integer below 10^21 (from 10^21 on,
 * JavaScript switches to exponent form such as "1e+21", which is not modelled).
 */
module Decimal {

  /** The character of one decimal digit. */
  function Digit(d: nat): (c: char)
    requires d < 10
    ensures '0' <= c <= '9' && (c as int) - ('0' as int) == d
  {
    (('0' as int) + d) as char
  }

  predicate IsDigits(s: string) {
    forall i :: 0 <= i < |s| ==> '0' <= s[i] <= '9'
  }

  /** The number a string of decimal digits denotes. */
  function Value(s: string): nat
    requires IsDigits(s)
  {
    if s == [] then 0
    else 10 * Value(s[..|s| - 1]) + ((s[|s| - 1] as int) - ('0' as int))
  }

  /** `${n}` for a natural number n: no sign, no leading zero, at least one digit. */
  function NatToString(n: nat): (s: string)
    ensures |s| >= 1 && IsDigits(s)
    ensures |s| > 1 ==> s[0] != '0'
    ensures Value(s) == n
  {
    if n < 10 then [Digit(n)]
    else
      var prefix := NatToString(n / 10);
      assert (prefix + [Digit(n % 10)])[..|prefix|] == prefix;
      prefix + [Digit(n % 10)]
  }
}

=== FILE: pagination.dfy ===
/**
 * The vertical cursor of the PDF report. Blocks are laid out one after the
 * other; before each block the cursor is compared with the break line, and a
 * cursor beyond it opens a new page with the cursor back at the top margin.
 * Nothing checks the lines inside a block, so they can run below the break
 * line and, for a long section, past the bottom of the page.
 */
module Pagination {
  /** Where the cursor goes on a new page. */
  const TopMargin: int := 10
  /** A block starts on a new page only when the cursor is beyond this. */
  const BreakLine: int := 260
  /** Where the first block goes, below the fixed title lines. */
  const FirstBlockY: int := 50
  /** The cursor step of one text line. */
  const LineStep: int := 5
  /** Height of the A4 page the document uses. */
  const PageHeight: int := 297

  /** The kinds of block the report is made of. */
  datatype Block =
    | Instance                     // a CPU entry: title and five figure lines
    | SslHeading                   // the certificate section title
    | SslEntry                     // a certificate entry: title and expiry line
    | Section(wrappedLines: nat)   // a free-text section whose value wraps to that many lines

  /** How far a block moves the cursor. */
  function Advance(b: Block): (dy: int)
    ensures dy >= LineStep
  {
    match b
    case Instance => 5 * LineStep + 10
    case SslHeading => LineStep
    case SslEntry => LineStep + 10
    case Section(k) => LineStep + (k + 1) * LineStep
  }

  /**
   * Offset from a block's start to the last line it draws at a fixed offset.
   * For an instance block that is its uptime line, its last line; for a
   * section it is where the wrapped text starts, whose lines run further down.
   */
  function LastLineOffset(b: Block): int {
    match b
    case Instance => 5 * LineStep
    case SslHeading => 0
    case SslEntry => LineStep
    case Section(_) => LineStep
  }

  /** The cursor: its height on the page and the page it is on (pages count from 1). */
  datatype Cursor = Cursor(y: int, page: nat)

  const Start := Cursor(FirstBlockY, 1)

  /**
   * Where the next block goes: on a new page at the top margin when the cursor
   * is beyond the break line. A cursor below the top margin is placed on the
   * page, at the top margin exactly when a page was added, and at most one is.
   */
  function Place(c: Cursor): (p: Cursor)
    ensures p.y <= BreakLine
    ensures p.page == c.page || p.page == c.page + 1
    ensures c.y > TopMargin ==> TopMargin <= p.y && (p.y == TopMargin <==> p.page == c.page + 1)
  {
    if c.y > BreakLine then Cursor(TopMargin, c.page + 1) else c
  }

  /**
   * Lay out one block: a page is added exactly when the cursor was beyond the
   * break line, and the block ends below the top margin and at most its own
   * advance below the break line.
   */
  function Step(c: Cursor, b: Block): (r: Cursor)
    ensures r.page == c.page || r.page == c.page + 1
    ensures r.page == c.page + 1 <==> c.y > BreakLine
    ensures c.y >= TopMargin ==> TopMargin < r.y
    ensures r.y <= BreakLine + Advance(b)
  {
    var p := Place(c);
    Cursor(p.y + Advance(b), p.page)
  }

  /** The cursor after laying out the blocks, starting from Start: always strictly below the top margin. */
  function Run(blocks: seq<Block>): (c: Cursor)
    ensures c.y > TopMargin
    ensures c.page >= 1
    decreases |blocks|
  {
    if blocks == [] then Start else Step(Run(blocks[..|blocks| - 1]), blocks[|blocks| - 1])
  }

  /** Where each block goes. */
  function Placements(blocks: seq<Block>): (ps: seq<Cursor>)
    ensures |ps| == |blocks|
  {
    seq(|blocks|, i requires 0 <= i < |blocks| => Place(Run(blocks[..i])))
  }

  /** Number of placements at the top margin. */
  function AtTop(ps: seq<Cursor>): nat {
    if ps == [] then 0 else AtTop(ps[..|ps| - 1]) + (if ps[|ps| - 1].y == TopMargin then 1 else 0)
  }

  /** The blocks of the report: one per CPU entry, the SSL title, one per certificate, then the sections. */
  function ReportBlocks(cpuEntries: nat, sslEntries: nat, sectionLines: seq<nat>): seq<Block> {
    seq(cpuEntries + 1 + sslEntries + |sectionLines|, i requires 0 <= i < cpuEntries + 1 + sslEntries + |sectionLines| =>
      if i < cpuEntries then Instance
      else if i == cpuEntries then SslHeading
      else if i <= cpuEntries + sslEntries then SslEntry
      else Section(sectionLines[i - (cpuEntries + 1 + sslEntries)]))
  }

  /** Laying out one more block is one more step. */
  lemma RunAppend(blocks: seq<Block>, b: Block)
    ensures Run(blocks + [b]) == Step(Run(blocks), b)
  {
    assert (blocks + [b])[..|blocks|] == blocks;
  }

  /** One more block adds its placement at the end. */
  lemma PlacementsAppend(blocks: seq<Block>, b: Block)
    ensures Placements(blocks + [b]) == Placements(blocks) + [Place(Run(blocks))]
  {
    var bs := blocks + [b];
    forall i | 0 <= i < |blocks|
      ensures Placements(bs)[i] == Placements(blocks)[i]
    {
      assert bs[..i] == blocks[..i];
    }
    assert bs[..|blocks|] == blocks;
  }

  /** Laying out one more block: one more step, and its placement at the end. */
  lemma StepInto(blocks: seq<Block>, b: Block)
    ensures Run(blocks + [b]) == Step(Run(blocks), b)
    ensures Placements(blocks + [b]) == Placements(blocks) + [Place(Run(blocks))]
  {
    RunAppend(blocks, b);
    PlacementsAppend(blocks, b);
  }

  lemma TakeOneMore<T>(s: seq<T>, n: nat)
    requires n < |s|
    ensures s[..n + 1] == s[..n] + [s[n]]
  {
  }

  /** Every block starts at a height between the top margin and the break line. */
  lemma PlacedOnPage(blocks: seq<Block>, i: nat)
    requires i < |blocks|
    ensures TopMargin <= Placements(blocks)[i].y <= BreakLine
  {
  }

  /** A block goes to the top margin exactly when it opens a new page. */
  lemma AtTopIffNewPage(blocks: seq<Block>, i: nat)
    requires i < |blocks|
    ensures Placements(blocks)[i].y == TopMargin <==> Placements(blocks)[i].page == Run(blocks[..i]).page + 1
    ensures Placements(blocks)[i].page == Run(blocks[..i]).page || Placements(blocks)[i].page == Run(blocks[..i]).page + 1
  {
  }

  /** The page count is one plus the number of page breaks, i.e. of blocks placed at the top margin. */
  lemma {:induction false} PagesCountBreaks(blocks: seq<Block>)
    ensures Run(blocks).page == 1 + AtTop(Placements(blocks))
    decreases |blocks|
  {
    if blocks != [] {
      var init, last := blocks[..|blocks| - 1], blocks[|blocks| - 1];
      assert blocks == init + [last];
      PagesCountBreaks(init);
      PlacementsAppend(init, last);
      var ps := Placements(blocks);
      assert ps[..|ps| - 1] == Placements(init);
    }
  }

  /** No line of an instance block lies more than 25 below the break line. */
  lemma InstanceLinesBound(blocks: seq<Block>, i: nat)
    requires i < |blocks| && blocks[i] == Instance
    ensures Placements(blocks)[i].y + LastLineOffset(Instance) <= BreakLine + 5 * LineStep
  {
  }

  /**
   * The seventh of seven instance blocks starts on the first page exactly at
   * the break line, so its last figure line is drawn 25 below it.
   */
  lemma SeventhInstanceBelowBreakLine()
    ensures var blocks := seq(7, _ => Instance);
      && Placements(blocks)[6] == Cursor(BreakLine, 1)
      && Placements(blocks)[6].y + LastLineOffset(Instance) == 285
  {
    var blocks := seq(7, _ => Instance);
    var k := 0;
    while k < 6
      invariant 0 <= k <= 6
      invariant Run(blocks[..k]) == Cursor(FirstBlockY + 35 * k, 1)
    {
      RunAppend(blocks[..k], Instance);
      assert blocks[..k + 1] == blocks[..k] + [Instance];
      k := k + 1;
    }
  }

  /**
   * A section that starts at the break line and wraps to eight lines moves the
   * cursor past the bottom of the page: the space it reserves for its text is
   * not on the page.
   */
  lemma LongSectionPassesPageBottom(blocks: seq<Block>, i: nat)
    requires i < |blocks| && blocks[i] == Section(8) && Placements(blocks)[i].y == BreakLine
    ensures Run(blocks[..i + 1]).y > PageHeight
  {
    assert blocks[..i + 1] == blocks[..i] + [blocks[i]];
    RunAppend(blocks[..i], blocks[i]);
  }

  /** A short report stays on one page: nothing breaks while the cursor never passes the break line. */
  lemma {:induction false} NoBreakWhileAbove(blocks: seq<Block>)
    requires forall i :: 0 <= i < |blocks| ==> Run(blocks[..i]).y <= BreakLine
    ensures Run(blocks).page == 1
    decreases |blocks|
  {
    if blocks != [] {
      var init := blocks[..|blocks| - 1];
      forall i | 0 <= i < |init| ensures Run(init[..i]).y <= BreakLine {
        assert init[..i] == blocks[..i];
      }
      NoBreakWhileAbove(init);
      assert init == blocks[..|blocks| - 1];
    }
  }
}

=== FILE: report.dfy ===
/**
 * The chat report that sendTele hands to the messaging service: a header, one
 * numbered block per CPU entry, the certificate-expiry section and four
 * free-text sections, in that order and with fixed labels.
 */
module Report {
  import opened Series
  import Decimal

  /** The five form values. */
  datatype FormValue = FormValue(shift: string, issue: string, ticket: string, activity: string, reminder: string)

  /** The six collections the component holds when the report is assembled. */
  datatype Snapshot = Snapshot(
    cpuUsage: seq<UsageSample>,
    ramUsage: seq<UsageSample>,
    diskUsage: seq<UsageSample>,
    networkUsage: seq<NetworkSample>,
    uptime: seq<UptimeSample>,
    ssl: seq<SslSample>)

  const NotAvailable := "N/A"

  /** `text || 'N/A'` on a string: only the empty string is falsy. */
  function OrNotAvailable(text: string): (r: string)
    ensures r != ""
    ensures text != "" ==> r == text
  {
    if text == "" then NotAvailable else text
  }

  /** Each text followed by a line break, one after the other. */
  function Lines(texts: seq<string>): string {
    if texts == [] then "" else Lines(texts[..|texts| - 1]) + texts[|texts| - 1] + "\n"
  }

  /** The first line of a list of lines comes first, followed by the rest. */
  lemma {:induction false} LinesCons(first: string, rest: seq<string>)
    ensures Lines([first] + rest) == first + "\n" + Lines(rest)
    decreases |rest|
  {
    if rest != [] {
      var init, last := rest[..|rest| - 1], rest[|rest| - 1];
      assert ([first] + rest)[..|rest|] == [first] + init;
      LinesCons(first, init);
    }
  }

  /** Of six lines, the first two come first, followed by the other four. */
  lemma LinesTwo(a: string, b: string, c: string, d: string, e: string, f: string)
    ensures Lines([a, b, c, d, e, f]) == a + "\n" + b + "\n" + Lines([c, d, e, f])
  {
    assert [a, b, c, d, e, f] == [a] + [b, c, d, e, f];
    assert [b, c, d, e, f] == [b] + [c, d, e, f];
    LinesCons(a, [b, c, d, e, f]);
    LinesCons(b, [c, d, e, f]);
  }

  /** In a + b + c, a comes first, b right after it and c last. */
  lemma Middle(a: string, b: string, c: string)
    ensures |a| + |b| <= |a + b + c|
    ensures (a + b + c)[..|a|] == a && (a + b + c)[|a|..|a| + |b|] == b
    ensures a <= a + b + c && (a + b + c)[|a| + |b|..] == c
  {
  }

  /** The header opens with the report title on its own line, then the period line with the date. */
  function Header(date: string, shift: string): (r: string)
    ensures var opening := "REPORT ACTIVITY SYSNET \nPeriode : ";
      |opening| + |date| <= |r| && r[..|opening|] == opening && r[|opening|..|opening| + |date|] == date
  {
    var title, period, shiftLine := "REPORT ACTIVITY SYSNET ", "Periode : " + date + " ", "Shift : " + shift + " ";
    LinesTwo(title, period, shiftLine, " ", "Daily Activity ", "*Data All Server:*");
    var rest := Lines([shiftLine, " ", "Daily Activity ", "*Data All Server:*"]);
    var opening, tail := title + "\n" + "Periode : ", " " + "\n" + rest;
    assert title + "\n" + period + "\n" + rest == opening + date + tail;
    Middle(opening, date, tail);
    assert opening == "REPORT ACTIVITY SYSNET \nPeriode : ";
    Lines([title, period, shiftLine, " ", "Daily Activity ", "*Data All Server:*"])
  }

  /** The RAM figure as printed: `getRamUsageForInstance(..)?.toFixed(1) || 'N/A'`. */
  function RamText(s: Snapshot, instance: string, toFixed: real -> string): string {
    OrNotAvailable(toFixed(UsageFor(s.ramUsage, instance)))
  }

  /** The disk figure as printed: `getDiskUsageForInstance(..)?.toFixed(1) || 'N/A'`. */
  function DiskText(s: Snapshot, instance: string, toFixed: real -> string): string {
    OrNotAvailable(toFixed(UsageFor(s.diskUsage, instance)))
  }

  /** The uptime as printed: `getUptimeForInstance(..) || 'N/A'`. */
  function UptimeField(s: Snapshot, instance: string): string {
    OrNotAvailable(UptimeFor(s.uptime, instance))
  }

  /** Download plus upload of the instance's network entry. */
  function TotalNetwork(s: Snapshot, instance: string): real {
    var traffic := NetworkFor(s.networkUsage, instance);
    traffic.download + traffic.upload
  }

  /** The first line of the n-th block of a list: its number and the instance. */
  function BlockTitle(n: nat, instance: string): string {
    Lines([Decimal.NatToString(n) + ". " + instance])
  }

  /** The five figure lines under a CPU entry's title, and the blank line that closes the block. */
  function Figures(cpu: string, ram: string, total: string, disk: string, uptime: string): string {
    Lines(["   - CPU Used: " + cpu + "%", "   - RAM Used: " + ram + "%",
           "   - Total Network Usage: " + total + " MB/s", "   - Disk Usage: " + disk + " %",
           "   - Uptime: " + uptime, ""])
  }

  /** The figures of a CPU entry, each looked up by the entry's instance. */
  function InstanceFigures(cpu: UsageSample, s: Snapshot, toFixed: real -> string): string {
    Figures(toFixed(cpu.usage), RamText(s, cpu.instance, toFixed), toFixed(TotalNetwork(s, cpu.instance)),
            DiskText(s, cpu.instance, toFixed), UptimeField(s, cpu.instance))
  }

  /** The block of the n-th CPU entry. */
  function InstanceBlock(n: nat, cpu: UsageSample, s: Snapshot, toFixed: real -> string): string {
    BlockTitle(n, cpu.instance) + InstanceFigures(cpu, s, toFixed)
  }

  /** The `cpuUsage.map(..)` of sendTele: one block per CPU entry, numbered from 1 in list order. */
  function InstanceBlocks(s: Snapshot, toFixed: real -> string): (blocks: seq<string>)
    ensures |blocks| == |s.cpuUsage|
    ensures forall i :: 0 <= i < |blocks| ==>
      var title := BlockTitle(i + 1, s.cpuUsage[i].instance);
      |title| <= |blocks[i]| && blocks[i][..|title|] == title
  {
    seq(|s.cpuUsage|, i requires 0 <= i < |s.cpuUsage| => InstanceBlock(i + 1, s.cpuUsage[i], s, toFixed))
  }

  /** The CPU blocks do not read the certificate entries: refreshing them leaves the blocks as they were. */
  lemma InstanceBlocksIgnoreSsl(s: Snapshot, ssl: seq<SslSample>, toFixed: real -> string)
    ensures InstanceBlocks(s.(ssl := ssl), toFixed) == InstanceBlocks(s, toFixed)
  {
    var t := s.(ssl := ssl);
    var before, after := InstanceBlocks(s, toFixed), InstanceBlocks(t, toFixed);
    forall i | 0 <= i < |s.cpuUsage|
      ensures after[i] == before[i]
    {
      InstanceBlockAt(s, toFixed, i);
      InstanceBlockAt(t, toFixed, i);
      FiguresIgnoreSsl(s.cpuUsage[i], s, t, toFixed);
    }
  }

  /** The i-th CPU block is the block of the i-th entry, numbered i + 1. */
  lemma InstanceBlockAt(s: Snapshot, toFixed: real -> string, i: nat)
    requires i < |s.cpuUsage|
    ensures |InstanceBlocks(s, toFixed)| == |s.cpuUsage|
    ensures InstanceBlocks(s, toFixed)[i] == InstanceBlock(i + 1, s.cpuUsage[i], s, toFixed)
  {
  }

  /** The figures of one CPU entry read every list of the snapshot but the certificate entries. */
  lemma FiguresIgnoreSsl(cpu: UsageSample, s: Snapshot, t: Snapshot, toFixed: real -> string)
    requires t == s.(ssl := t.ssl)
    ensures InstanceFigures(cpu, t, toFixed) == InstanceFigures(cpu, s, toFixed)
  {
    assert RamText(t, cpu.instance, toFixed) == RamText(s, cpu.instance, toFixed);
    assert DiskText(t, cpu.instance, toFixed) == DiskText(s, cpu.instance, toFixed);
    assert UptimeField(t, cpu.instance) == UptimeField(s, cpu.instance);
    assert TotalNetwork(t, cpu.instance) == TotalNetwork(s, cpu.instance);
  }

  const SslTitle := Lines(["*Masa Tenggang SSL:*"])

  /** The block of the n-th certificate entry. */
  function SslBlock(n: nat, entry: SslSample): string {
    BlockTitle(n, entry.instance) + Lines(["   - SSL Expiry: " + entry.expiryDate, ""])
  }

  /** The `ssl.map(..)` of sendTele: one block per certificate entry, numbered from 1 in list order. */
  function SslBlocks(s: Snapshot): (blocks: seq<string>)
    ensures |blocks| == |s.ssl|
    ensures forall i :: 0 <= i < |blocks| ==>
      var title := BlockTitle(i + 1, s.ssl[i].instance);
      |title| <= |blocks[i]| && blocks[i][..|title|] == title
  {
    seq(|s.ssl|, i requires 0 <= i < |s.ssl| => SslBlock(i + 1, s.ssl[i]))
  }

  /** The four free-text sections. */
  function Sections(form: FormValue): string {
    Lines(["Issue/Request from Internal: " + OrNotAvailable(form.issue), "",
           "Ticketing Open: " + OrNotAvailable(form.ticket), "",
           "Activity: " + OrNotAvailable(form.activity), "",
           "Reminder: " + OrNotAvailable(form.reminder)])
  }

  /** Array.prototype.join('') */
  function Concat(parts: seq<string>): string {
    if parts == [] then "" else Concat(parts[..|parts| - 1]) + parts[|parts| - 1]
  }

  /** `header + messageLines.join('') + '*Masa Tenggang SSL:*\n' + sslLines.join('') + ..sections`. */
  function Assemble(header: string, blocks: seq<string>, certificates: seq<string>, sections: string): string {
    header + Concat(blocks) + SslTitle + Concat(certificates) + sections
  }

  /** The assembled report opens with the header and closes with the sections. */
  lemma AssembleEnds(header: string, blocks: seq<string>, certificates: seq<string>, sections: string)
    ensures header <= Assemble(header, blocks, certificates, sections)
    ensures var report := Assemble(header, blocks, certificates, sections);
      |sections| <= |report| && report[|report| - |sections|..] == sections
  {
    var middle := Concat(blocks) + SslTitle + Concat(certificates);
    assert Assemble(header, blocks, certificates, sections) == header + middle + sections;
    Middle(header, middle, sections);
  }

  /** The text sendTele sends: it opens with the header and closes with the four sections. */
  function Message(s: Snapshot, form: FormValue, date: string, toFixed: real -> string): (r: string)
    ensures Header(date, form.shift) <= r
    ensures |Sections(form)| <= |r| && r[|r| - |Sections(form)|..] == Sections(form)
  {
    var header, blocks, certificates, sections := Header(date, form.shift), InstanceBlocks(s, toFixed), SslBlocks(s), Sections(form);
    AssembleEnds(header, blocks, certificates, sections);
    Assemble(header, blocks, certificates, sections)
  }

  /** Joining two lists of parts is joining each and concatenating. */
  lemma {:induction false} ConcatAppend(a: seq<string>, b: seq<string>)
    ensures Concat(a + b) == Concat(a) + Concat(b)
    decreases |b|
  {
    if b == [] {
      assert a + b == a;
    } else {
      var b', last := b[..|b| - 1], b[|b| - 1];
      assert (a + b)[..|a + b| - 1] == a + b';
      assert (a + b)[|a + b| - 1] == last;
      ConcatAppend(a, b');
      calc {
        Concat(a + b);
        Concat(a + b') + last;
        Concat(a) + Concat(b') + last;
        Concat(a) + Concat(b);
      }
    }
  }

  /** The part at position i sits right after the parts before it. */
  lemma ConcatAt(parts: seq<string>, i: nat)
    requires i < |parts|
    ensures Concat(parts) == Concat(parts[..i]) + parts[i] + Concat(parts[i + 1..])
  {
    var upTo := parts[..i + 1];
    assert parts == upTo + parts[i + 1..];
    ConcatAppend(upTo, parts[i + 1..]);
    assert upTo[..|upTo| - 1] == parts[..i];
    assert Concat(upTo) == Concat(parts[..i]) + parts[i];
  }

  /** In prefix + join(parts) + suffix, part i starts after the prefix and the parts before it. */
  lemma PartInText(whole: string, prefix: string, parts: seq<string>, suffix: string, i: nat)
    requires i < |parts| && whole == prefix + Concat(parts) + suffix
    ensures var start := |prefix| + |Concat(parts[..i])|;
      start + |parts[i]| <= |whole| && whole[start..start + |parts[i]|] == parts[i]
  {
    ConcatAt(parts, i);
    var before := prefix + Concat(parts[..i]);
    var after := Concat(parts[i + 1..]) + suffix;
    assert whole == before + parts[i] + after;
  }

  /**
   * Block i of the CPU list sits right after the header and the blocks before it,
   * and the report starts with the header and ends with the free-text sections.
   */
  lemma BlockInReport(header: string, blocks: seq<string>, certificates: seq<string>, sections: string, i: nat)
    requires i < |blocks|
    ensures var report, start := Assemble(header, blocks, certificates, sections), |header| + |Concat(blocks[..i])|;
      && start + |blocks[i]| <= |report| && report[start..start + |blocks[i]|] == blocks[i]
      && report[..|header|] == header
      && report[|report| - |sections|..] == sections
  {
    var report := Assemble(header, blocks, certificates, sections);
    PartInText(report, header, blocks, SslTitle + Concat(certificates) + sections, i);
    assert report == header + (Concat(blocks) + SslTitle + Concat(certificates)) + sections;
  }

  /**
   * Certificate block j sits after every CPU block, the SSL title and the
   * certificate blocks before it.
   */
  lemma CertificateInReport(header: string, blocks: seq<string>, certificates: seq<string>, sections: string, j: nat)
    requires j < |certificates|
    ensures var report := Assemble(header, blocks, certificates, sections);
      var start := |header| + |Concat(blocks)| + |SslTitle| + |Concat(certificates[..j])|;
      start + |certificates[j]| <= |report| && report[start..start + |certificates[j]|] == certificates[j]
  {
    var report := Assemble(header, blocks, certificates, sections);
    PartInText(report, header + Concat(blocks) + SslTitle, certificates, sections, j);
  }

  /**
   * Right after the CPU blocks comes the line "*Masa Tenggang SSL:*", and
   * right after the last certificate block come the sections.
   */
  lemma SslTitleBetween(header: string, blocks: seq<string>, certificates: seq<string>, sections: string)
    ensures var report := Assemble(header, blocks, certificates, sections);
      var t := |header| + |Concat(blocks)|;
      t + 21 <= |report| && report[t..t + 21] == "*Masa Tenggang SSL:*\n"
      && report[t + 21 + |Concat(certificates)|..] == sections
  {
    var report := Assemble(header, blocks, certificates, sections);
    assert SslTitle == "*Masa Tenggang SSL:*\n";
    assert report == (header + Concat(blocks)) + SslTitle + (Concat(certificates) + sections);
  }

  /** Number of line breaks in a text. */
  function Newlines(text: string): nat {
    multiset(text)['\n']
  }

  lemma NewlinesAppend(a: string, b: string)
    ensures Newlines(a + b) == Newlines(a) + Newlines(b)
  {
    assert multiset(a + b) == multiset(a) + multiset(b);
  }

  /** Texts without line breaks, each put on its own line, give one line break per text. */
  lemma {:induction false} LinesNewlines(texts: seq<string>)
    requires forall i :: 0 <= i < |texts| ==> '\n' !in texts[i]
    ensures Newlines(Lines(texts)) == |texts|
    decreases |texts|
  {
    if texts != [] {
      var init, last := texts[..|texts| - 1], texts[|texts| - 1];
      LinesNewlines(init);
      NewlinesAppend(Lines(init), last);
      NewlinesAppend(Lines(init) + last, "\n");
      assert '\n' !in multiset(last);
      assert multiset("\n") == multiset{'\n'};
    }
  }

  /** Joining parts that each hold k line breaks gives k line breaks per part. */
  lemma {:induction false} ConcatNewlines(parts: seq<string>, k: nat)
    requires forall i :: 0 <= i < |parts| ==> Newlines(parts[i]) == k
    ensures Newlines(Concat(parts)) == k * |parts|
    decreases |parts|
  {
    if parts != [] {
      var init, last := parts[..|parts| - 1], parts[|parts| - 1];
      ConcatNewlines(init, k);
      NewlinesAppend(Concat(init), last);
      MulSucc(k, |init|);
    }
  }

  lemma MulSucc(k: nat, n: nat)
    ensures k * (n + 1) == k * n + k
  {
  }

  /** The report has the header's and the sections' line breaks, k per block, one for the SSL title and m per certificate block. */
  lemma AssembleNewlines(header: string, blocks: seq<string>, certificates: seq<string>, sections: string, k: nat, m: nat)
    requires forall i :: 0 <= i < |blocks| ==> Newlines(blocks[i]) == k
    requires forall j :: 0 <= j < |certificates| ==> Newlines(certificates[j]) == m
    ensures Newlines(Assemble(header, blocks, certificates, sections))
         == Newlines(header) + k * |blocks| + 1 + m * |certificates| + Newlines(sections)
  {
    ConcatNewlines(blocks, k);
    ConcatNewlines(certificates, m);
    LinesNewlines(["*Masa Tenggang SSL:*"]);
    var b, c := Concat(blocks), Concat(certificates);
    NewlinesAppend(header, b);
    NewlinesAppend(header + b, SslTitle);
    NewlinesAppend(header + b + SslTitle, c);
    NewlinesAppend(header + b + SslTitle + c, sections);
  }

  /** Joining two texts without a line break gives none. */
  lemma NoBreakAppend(a: string, b: string)
    requires '\n' !in a && '\n' !in b
    ensures '\n' !in a + b
  {
  }

  lemma TwoLinesNewlines(a: string, b: string)
    requires '\n' !in a && '\n' !in b
    ensures Newlines(Lines([a, b])) == 2
  {
    LinesNewlines([a, b]);
  }

  lemma SixLinesNewlines(a: string, b: string, c: string, d: string, e: string, f: string)
    requires '\n' !in a && '\n' !in b && '\n' !in c && '\n' !in d && '\n' !in e && '\n' !in f
    ensures Newlines(Lines([a, b, c, d, e, f])) == 6
  {
    LinesNewlines([a, b, c, d, e, f]);
  }

  lemma SevenLinesNewlines(a: string, b: string, c: string, d: string, e: string, f: string, g: string)
    requires '\n' !in a && '\n' !in b && '\n' !in c && '\n' !in d && '\n' !in e && '\n' !in f && '\n' !in g
    ensures Newlines(Lines([a, b, c, d, e, f, g])) == 7
  {
    LinesNewlines([a, b, c, d, e, f, g]);
  }

  /** The fixed texts of the CPU block, of the certificate block, of the header and of the sections hold no line break. */
  lemma FigureLabelsNoBreak()
    ensures '\n' !in "   - CPU Used: " && '\n' !in "   - RAM Used: " && '\n' !in "%"
    ensures '\n' !in "   - Total Network Usage: " && '\n' !in " MB/s"
    ensures '\n' !in "   - Disk Usage: " && '\n' !in " %" && '\n' !in "   - Uptime: "
    ensures '\n' !in "   - SSL Expiry: "
  {
  }

  lemma HeaderLabelsNoBreak()
    ensures '\n' !in "REPORT ACTIVITY SYSNET " && '\n' !in "Periode : " && '\n' !in " " && '\n' !in "Shift : "
    ensures '\n' !in "Daily Activity " && '\n' !in "*Data All Server:*"
  {
  }

  lemma SectionLabelsNoBreak()
    ensures '\n' !in "Issue/Request from Internal: " && '\n' !in "Ticketing Open: "
    ensures '\n' !in "Activity: " && '\n' !in "Reminder: "
  {
  }

  /** With no line break in any figure, the figures are 6 lines. */
  lemma FiguresNewlines(cpu: string, ram: string, total: string, disk: string, uptime: string)
    requires '\n' !in cpu && '\n' !in ram && '\n' !in total && '\n' !in disk && '\n' !in uptime
    ensures Newlines(Figures(cpu, ram, total, disk, uptime)) == 6
  {
    FigureLabelsNoBreak();
    NoBreakAppend("   - CPU Used: ", cpu);
    NoBreakAppend("   - CPU Used: " + cpu, "%");
    NoBreakAppend("   - RAM Used: ", ram);
    NoBreakAppend("   - RAM Used: " + ram, "%");
    NoBreakAppend("   - Total Network Usage: ", total);
    NoBreakAppend("   - Total Network Usage: " + total, " MB/s");
    NoBreakAppend("   - Disk Usage: ", disk);
    NoBreakAppend("   - Disk Usage: " + disk, " %");
    NoBreakAppend("   - Uptime: ", uptime);
    SixLinesNewlines("   - CPU Used: " + cpu + "%", "   - RAM Used: " + ram + "%",
                     "   - Total Network Usage: " + total + " MB/s", "   - Disk Usage: " + disk + " %",
                     "   - Uptime: " + uptime, "");
  }

  /** With no line break in the instance, a block title is 1 line. */
  lemma BlockTitleNewlines(n: nat, instance: string)
    requires '\n' !in instance
    ensures Newlines(BlockTitle(n, instance)) == 1
  {
    var texts := [Decimal.NatToString(n) + ". " + instance];
    assert '\n' !in texts[0];
    LinesNewlines(texts);
  }

  /** With no line break in its instance, its formatted numbers or the stored uptimes, a CPU block is 7 lines. */
  lemma InstanceBlockNewlines(n: nat, cpu: UsageSample, s: Snapshot, toFixed: real -> string)
    requires '\n' !in cpu.instance
    requires forall x :: '\n' !in toFixed(x)
    requires forall i :: 0 <= i < |s.uptime| ==> '\n' !in s.uptime[i].usage
    ensures Newlines(InstanceBlock(n, cpu, s, toFixed)) == 7
  {
    var uptime := UptimeField(s, cpu.instance);
    assert '\n' !in uptime by {
      match Find(UptimeKeys(s.uptime), cpu.instance)
      case Some(k) =>
      case None =>
    }
    var ram, disk := RamText(s, cpu.instance, toFixed), DiskText(s, cpu.instance, toFixed);
    assert '\n' !in ram && '\n' !in disk;
    BlockTitleNewlines(n, cpu.instance);
    FiguresNewlines(toFixed(cpu.usage), ram, toFixed(TotalNetwork(s, cpu.instance)), disk, uptime);
    NewlinesAppend(BlockTitle(n, cpu.instance), InstanceFigures(cpu, s, toFixed));
  }

  /** With no line break in its instance or date, a certificate block is 3 lines. */
  lemma SslBlockNewlines(n: nat, entry: SslSample)
    requires '\n' !in entry.instance && '\n' !in entry.expiryDate
    ensures Newlines(SslBlock(n, entry)) == 3
  {
    BlockTitleNewlines(n, entry.instance);
    FigureLabelsNoBreak();
    NoBreakAppend("   - SSL Expiry: ", entry.expiryDate);
    TwoLinesNewlines("   - SSL Expiry: " + entry.expiryDate, "");
    NewlinesAppend(BlockTitle(n, entry.instance), Lines(["   - SSL Expiry: " + entry.expiryDate, ""]));
  }

  /** With no line break in the date or the shift, the header is 6 lines. */
  lemma HeaderNewlines(date: string, shift: string)
    requires '\n' !in date && '\n' !in shift
    ensures Newlines(Header(date, shift)) == 6
  {
    HeaderLabelsNoBreak();
    NoBreakAppend("Periode : ", date);
    NoBreakAppend("Periode : " + date, " ");
    NoBreakAppend("Shift : ", shift);
    NoBreakAppend("Shift : " + shift, " ");
    SixLinesNewlines("REPORT ACTIVITY SYSNET ", "Periode : " + date + " ", "Shift : " + shift + " ", " ",
                     "Daily Activity ", "*Data All Server:*");
  }

  /** With no line break in the form values, the sections are 7 lines. */
  lemma SectionsNewlines(form: FormValue)
    requires '\n' !in form.issue && '\n' !in form.ticket && '\n' !in form.activity && '\n' !in form.reminder
    ensures Newlines(Sections(form)) == 7
  {
    var issue, ticket := OrNotAvailable(form.issue), OrNotAvailable(form.ticket);
    var activity, reminder := OrNotAvailable(form.activity), OrNotAvailable(form.reminder);
    SectionLabelsNoBreak();
    NoBreakAppend("Issue/Request from Internal: ", issue);
    NoBreakAppend("Ticketing Open: ", ticket);
    NoBreakAppend("Activity: ", activity);
    NoBreakAppend("Reminder: ", reminder);
    SevenLinesNewlines("Issue/Request from Internal: " + issue, "", "Ticketing Open: " + ticket, "",
                       "Activity: " + activity, "", "Reminder: " + reminder);
  }

  lemma EveryInstanceBlockNewlines(s: Snapshot, toFixed: real -> string)
    requires forall x :: '\n' !in toFixed(x)
    requires forall i :: 0 <= i < |s.cpuUsage| ==> '\n' !in s.cpuUsage[i].instance
    requires forall i :: 0 <= i < |s.uptime| ==> '\n' !in s.uptime[i].usage
    ensures forall i :: 0 <= i < |InstanceBlocks(s, toFixed)| ==> Newlines(InstanceBlocks(s, toFixed)[i]) == 7
  {
    var blocks := InstanceBlocks(s, toFixed);
    forall i | 0 <= i < |blocks| ensures Newlines(blocks[i]) == 7 {
      InstanceBlockAt(s, toFixed, i);
      InstanceBlockNewlines(i + 1, s.cpuUsage[i], s, toFixed);
    }
  }

  lemma EverySslBlockNewlines(s: Snapshot)
    requires forall i :: 0 <= i < |s.ssl| ==> '\n' !in s.ssl[i].instance && '\n' !in s.ssl[i].expiryDate
    ensures forall j :: 0 <= j < |SslBlocks(s)| ==> Newlines(SslBlocks(s)[j]) == 3
  {
    var certificates := SslBlocks(s);
    forall j | 0 <= j < |certificates| ensures Newlines(certificates[j]) == 3 {
      SslBlockNewlines(j + 1, s.ssl[j]);
    }
  }

  /**
   * When no value put into the report holds a line break, the message has 6
   * header lines, 7 lines per CPU entry, the SSL title line, 3 lines per
   * certificate entry and 7 section lines: one block per entry, no more.
   */
  lemma MessageLineCount(s: Snapshot, form: FormValue, date: string, toFixed: real -> string)
    requires '\n' !in date && '\n' !in form.shift && '\n' !in form.issue && '\n' !in form.ticket
    requires '\n' !in form.activity && '\n' !in form.reminder
    requires forall x :: '\n' !in toFixed(x)
    requires forall i :: 0 <= i < |s.cpuUsage| ==> '\n' !in s.cpuUsage[i].instance
    requires forall i :: 0 <= i < |s.uptime| ==> '\n' !in s.uptime[i].usage
    requires forall i :: 0 <= i < |s.ssl| ==> '\n' !in s.ssl[i].instance && '\n' !in s.ssl[i].expiryDate
    ensures Newlines(Message(s, form, date, toFixed)) == 6 + 7 * |s.cpuUsage| + 1 + 3 * |s.ssl| + 7
  {
    var blocks, certificates := InstanceBlocks(s, toFixed), SslBlocks(s);
    EveryInstanceBlockNewlines(s, toFixed);
    EverySslBlockNewlines(s);
    var header, sections := Header(date, form.shift), Sections(form);
    HeaderNewlines(date, form.shift);
    SectionsNewlines(form);
    AssembleNewlines(header, blocks, certificates, sections, 7, 3);
    assert Message(s, form, date, toFixed) == Assemble(header, blocks, certificates, sections);
  }

  /**
   * A CPU entry's instance that the RAM, disk or uptime series lacks prints
   * the lookup's fallback: the `|| 'N/A'` guard never fires for it, because
   * the formatted 0 and "Data tidak tersedia" are not empty.
   */
  lemma MissingInstancePrintsFallback(s: Snapshot, instance: string, toFixed: real -> string)
    requires toFixed(0.0) != ""
    ensures instance !in UsageKeys(s.ramUsage) ==> RamText(s, instance, toFixed) == toFixed(0.0)
    ensures instance !in UsageKeys(s.diskUsage) ==> DiskText(s, instance, toFixed) == toFixed(0.0)
    ensures instance !in UptimeKeys(s.uptime) ==> UptimeField(s, instance) == UptimeFallback
    ensures instance !in NetworkKeys(s.networkUsage) ==> TotalNetwork(s, instance) == 0.0
  {
  }

  /** Stored uptime texts are never empty, so the uptime guard never fires at all. */
  lemma UptimeGuardNeverFires(s: Snapshot, instance: string)
    requires forall i :: 0 <= i < |s.uptime| ==> s.uptime[i].usage != ""
    ensures UptimeField(s, instance) == UptimeFor(s.uptime, instance)
  {
  }

  /** A snapshot with one host, present in every series. */
  function SingleHost(): Snapshot {
    Snapshot([UsageSample("host1", 55.4)], [UsageSample("host1", 70.0)], [UsageSample("host1", 30.0)],
             [NetworkSample("host1", 2.0, 1.0, 3.0)],
             [UptimeSample("host1", "0 Tahun 0 Bulan 1 hari 0 Jam 0 Menit")], [])
  }

  /** Every lookup for the host finds its own entry. */
  lemma SingleHostLookups()
    ensures UsageFor(SingleHost().ramUsage, "host1") == 70.0
    ensures UsageFor(SingleHost().diskUsage, "host1") == 30.0
    ensures UptimeFor(SingleHost().uptime, "host1") == "0 Tahun 0 Bulan 1 hari 0 Jam 0 Menit"
    ensures TotalNetwork(SingleHost(), "host1") == 3.0
  {
  }

  /** One more text adds its own line at the end. */
  lemma LinesSnoc(texts: seq<string>, t: string)
    ensures Lines(texts + [t]) == Lines(texts) + (t + "\n")
  {
    assert (texts + [t])[..|texts|] == texts;
  }

  /** Six texts give six lines, one after the other. */
  lemma LinesSix(a: string, b: string, c: string, d: string, e: string, f: string)
    ensures Lines([a, b, c, d, e, f]) == (a + "\n") + (b + "\n") + (c + "\n") + (d + "\n") + (e + "\n") + (f + "\n")
  {
    LinesSnoc([], a);
    assert [] + [a] == [a];
    LinesSnoc([a], b);
    assert [a] + [b] == [a, b];
    LinesSnoc([a, b], c);
    assert [a, b] + [c] == [a, b, c];
    LinesSnoc([a, b, c], d);
    assert [a, b, c] + [d] == [a, b, c, d];
    LinesSnoc([a, b, c, d], e);
    assert [a, b, c, d] + [e] == [a, b, c, d, e];
    LinesSnoc([a, b, c, d, e], f);
    assert [a, b, c, d, e] + [f] == [a, b, c, d, e, f];
  }

  lemma FirstHostTitle()
    ensures BlockTitle(1, "host1") == "1. host1\n"
  {
    var title := Decimal.NatToString(1) + ". " + "host1";
    assert Decimal.NatToString(1) == "1";
    assert "1" + ". " == "1. ";
    assert "1. " + "host1" == "1. host1";
    LinesSnoc([], title);
    assert [] + [title] == [title];
    assert "1. host1" + "\n" == "1. host1\n";
  }

  /** Putting a text before six parts, or before their concatenation, gives the same text. */
  lemma Prepend6(t: string, a: string, b: string, c: string, d: string, e: string, f: string)
    ensures t + (a + b + c + d + e + f) == t + a + b + c + d + e + f
  {
  }

  lemma CpuLine()
    ensures "   - CPU Used: " + "55.4" + "%" + "\n" == "   - CPU Used: 55.4%\n"
  {
  }

  lemma RamLine()
    ensures "   - RAM Used: " + "70.0" + "%" + "\n" == "   - RAM Used: 70.0%\n"
  {
  }

  lemma NetworkLine()
    ensures "   - Total Network Usage: " + "3.0" + " MB/s" + "\n" == "   - Total Network Usage: 3.0 MB/s\n"
  {
  }

  lemma DiskLine()
    ensures "   - Disk Usage: " + "30.0" + " %" + "\n" == "   - Disk Usage: 30.0 %\n"
  {
  }

  lemma HostFigures()
    ensures Figures("55.4", "70.0", "3.0", "30.0", "0 Tahun 0 Bulan 1 hari 0 Jam 0 Menit")
         == "   - CPU Used: 55.4%\n" + "   - RAM Used: 70.0%\n" + "   - Total Network Usage: 3.0 MB/s\n"
          + "   - Disk Usage: 30.0 %\n" + ("   - Uptime: " + "0 Tahun 0 Bulan 1 hari 0 Jam 0 Menit" + "\n") + "\n"
  {
    LinesSix("   - CPU Used: " + "55.4" + "%", "   - RAM Used: " + "70.0" + "%",
             "   - Total Network Usage: " + "3.0" + " MB/s", "   - Disk Usage: " + "30.0" + " %",
             "   - Uptime: " + "0 Tahun 0 Bulan 1 hari 0 Jam 0 Menit", "");
    CpuLine();
    RamLine();
    NetworkLine();
    DiskLine();
  }

  /**
   * One host with every series present: its block names it first, then its
   * CPU, RAM, total network, disk and uptime figures with their labels and
   * units, then a blank line.
   */
  lemma SingleHostBlock(toFixed: real -> string)
    requires toFixed(55.4) == "55.4" && toFixed(70.0) == "70.0" && toFixed(3.0) == "3.0" && toFixed(30.0) == "30.0"
    ensures InstanceBlocks(SingleHost(), toFixed)
        == ["1. host1\n" + "   - CPU Used: 55.4%\n" + "   - RAM Used: 70.0%\n" + "   - Total Network Usage: 3.0 MB/s\n"
            + "   - Disk Usage: 30.0 %\n" + ("   - Uptime: " + "0 Tahun 0 Bulan 1 hari 0 Jam 0 Menit" + "\n") + "\n"]
  {
    var s := SingleHost();
    SingleHostLookups();
    var figures := Figures("55.4", "70.0", "3.0", "30.0", "0 Tahun 0 Bulan 1 hari 0 Jam 0 Menit");
    assert InstanceFigures(s.cpuUsage[0], s, toFixed) == figures;
    assert InstanceBlocks(s, toFixed) == [BlockTitle(1, "host1") + figures];
    FirstHostTitle();
    HostFigures();
    Prepend6("1. host1\n", "   - CPU Used: 55.4%\n", "   - RAM Used: 70.0%\n", "   - Total Network Usage: 3.0 MB/s\n",
             "   - Disk Usage: 30.0 %\n", ("   - Uptime: " + "0 Tahun 0 Bulan 1 hari 0 Jam 0 Menit" + "\n"), "\n");
  }

  /** Seven texts give seven lines, one after the other. */
  lemma LinesSeven(a: string, b: string, c: string, d: string, e: string, f: string, g: string)
    ensures Lines([a, b, c, d, e, f, g])
         == (a + "\n") + (b + "\n") + (c + "\n") + (d + "\n") + (e + "\n") + (f + "\n") + (g + "\n")
  {
    LinesSix(a, b, c, d, e, f);
    LinesSnoc([a, b, c, d, e, f], g);
    assert [a, b, c, d, e, f] + [g] == [a, b, c, d, e, f, g];
  }

  lemma IssueLine()
    ensures "Issue/Request from Internal: " + "N/A" + "\n" == "Issue/Request from Internal: N/A\n"
  {
  }

  lemma TicketLine()
    ensures "Ticketing Open: " + "T-12" + "\n" == "Ticketing Open: T-12\n"
  {
  }

  lemma ActivityLine()
    ensures "Activity: " + "patching" + "\n" == "Activity: patching\n"
  {
  }

  lemma ReminderLine()
    ensures "Reminder: " + "N/A" + "\n" == "Reminder: N/A\n"
  {
  }

  /**
   * A form with a blank issue and a blank reminder: the four sections appear
   * in order with their labels, a blank line between them, and "N/A" for the
   * blank values.
   */
  lemma SectionsExample()
    ensures Sections(FormValue("pagi", "", "T-12", "patching", ""))
         == "Issue/Request from Internal: N/A\n" + "\n" + "Ticketing Open: T-12\n" + "\n"
          + "Activity: patching\n" + "\n" + "Reminder: N/A\n"
  {
    assert OrNotAvailable("") == "N/A";
    assert OrNotAvailable("T-12") == "T-12";
    assert OrNotAvailable("patching") == "patching";
    LinesSeven("Issue/Request from Internal: " + "N/A", "", "Ticketing Open: " + "T-12", "",
               "Activity: " + "patching", "", "Reminder: " + "N/A");
    IssueLine();
    TicketLine();
    ActivityLine();
    ReminderLine();
    assert "" + "\n" == "\n";
  }

  lemma TitleLines()
    ensures "REPORT ACTIVITY SYSNET " + "\n" == "REPORT ACTIVITY SYSNET \n"
    ensures "Daily Activity " + "\n" == "Daily Activity \n"
    ensures "*Data All Server:*" + "\n" == "*Data All Server:*\n"
    ensures " " + "\n" == " \n"
  {
  }

  lemma PeriodAndShiftLines()
    ensures "Periode : " + "11/10/2026" + " " + "\n" == "Periode : 11/10/2026 \n"
    ensures "Shift : " + "pagi" + " " + "\n" == "Shift : pagi \n"
  {
  }

  /** The header for one date and shift: six lines with their labels and trailing spaces. */
  lemma HeaderExample()
    ensures Header("11/10/2026", "pagi")
         == "REPORT ACTIVITY SYSNET \n" + "Periode : 11/10/2026 \n" + "Shift : pagi \n" + " \n"
          + "Daily Activity \n" + "*Data All Server:*\n"
  {
    LinesSix("REPORT ACTIVITY SYSNET ", "Periode : " + "11/10/2026" + " ", "Shift : " + "pagi" + " ", " ",
             "Daily Activity ", "*Data All Server:*");
    TitleLines();
    PeriodAndShiftLines();
  }

  lemma ExpiryLine()
    ensures "   - SSL Expiry: " + "2026-12-31 23:59:59" + "\n" == "   - SSL Expiry: 2026-12-31 23:59:59\n"
  {
  }

  /** The first certificate block: its title, the expiry line with its label, and a blank line. */
  lemma SslBlockExample()
    ensures SslBlock(1, SslSample("host1", "2026-12-31 23:59:59"))
         == "1. host1\n" + "   - SSL Expiry: 2026-12-31 23:59:59\n" + "\n"
  {
    var expiry := "   - SSL Expiry: " + "2026-12-31 23:59:59";
    LinesSnoc([], expiry);
    assert [] + [expiry] == [expiry];
    LinesSnoc([expiry], "");
    assert [expiry] + [""] == [expiry, ""];
    assert "" + "\n" == "\n";
    FirstHostTitle();
    ExpiryLine();
  }
}

=== FILE: series.dfy ===
/**
 * Metric series as the dashboard holds them, the per-instance lookups that
 * tolerate a missing instance, and the left join of the download series with
 * the upload series.
 */
module Series {
  import opened Wrappers

  /** One element of a query's `data.result`: the `instance` label and the sample's value text. */
  datatype RawSample = RawSample(instance: string, value: string)

  /** A decoded query answer: its `status` and its `data.result`. */
  datatype Response = Response(status: string, result: seq<RawSample>)

  /** A CPU, RAM or disk utilisation entry. */
  datatype UsageSample = UsageSample(instance: string, usage: real)

  /** An uptime entry: the already rendered uptime text. */
  datatype UptimeSample = UptimeSample(instance: string, usage: string)

  /** A network entry, in MB/s. */
  datatype NetworkSample = NetworkSample(instance: string, download: real, upload: real, totalUsage: real)

  /** A certificate-expiry entry: the already rendered expiry date. */
  datatype SslSample = SslSample(instance: string, expiryDate: string)

  /** What the network lookup returns. */
  datatype Traffic = Traffic(download: real, upload: real)

  /** Bytes per megabyte, the divisor that turns a byte rate into MB/s. */
  const BytesPerMegabyte: real := (1024 * 1024) as real

  /** i is the position of the first key equal to instance. */
  predicate IsFirstMatch(keys: seq<string>, instance: string, i: int) {
    0 <= i < |keys| && keys[i] == instance && forall j :: 0 <= j < i ==> keys[j] != instance
  }

  /** Array.prototype.find on the instance label, as a position. */
  function Find(keys: seq<string>, instance: string): (r: Option<nat>)
    ensures r.Some? <==> instance in keys
    ensures r.Some? ==> IsFirstMatch(keys, instance, r.value)
  {
    if keys == [] then None
    else if keys[0] == instance then Some(0)
    else match Find(keys[1..], instance)
      case None => None
      case Some(i) => Some(i + 1)
  }

  function UsageKeys(rows: seq<UsageSample>): seq<string> {
    seq(|rows|, i requires 0 <= i < |rows| => rows[i].instance)
  }

  function UptimeKeys(rows: seq<UptimeSample>): seq<string> {
    seq(|rows|, i requires 0 <= i < |rows| => rows[i].instance)
  }

  function NetworkKeys(rows: seq<NetworkSample>): seq<string> {
    seq(|rows|, i requires 0 <= i < |rows| => rows[i].instance)
  }

  function RawKeys(rows: seq<RawSample>): seq<string> {
    seq(|rows|, i requires 0 <= i < |rows| => rows[i].instance)
  }

  /** The `result.map(..)` of the CPU, RAM and disk handlers: the instance and the parsed value, in order. */
  function UsageSeries(rows: seq<RawSample>, parseFloat: string -> real): seq<UsageSample> {
    seq(|rows|, i requires 0 <= i < |rows| => UsageSample(rows[i].instance, parseFloat(rows[i].value)))
  }

  /**
   * The `result.map(..)` of the certificate handler. expiry stands for
   * `convertEpochToDate(parseFloat(..))`, None where `toISOString` throws (a
   * NaN or out-of-range epoch); the map then raises at the first such entry
   * and produces nothing.
   */
  function SslSeries(rows: seq<RawSample>, expiry: string -> Option<string>): (r: Option<seq<SslSample>>)
    ensures r.None? <==> exists i :: 0 <= i < |rows| && expiry(rows[i].value).None?
    ensures r.Some? ==> |r.value| == |rows|
    ensures r.Some? ==> forall i :: 0 <= i < |rows| ==>
      expiry(rows[i].value).Some? && r.value[i] == SslSample(rows[i].instance, expiry(rows[i].value).value)
    decreases |rows|
  {
    if rows == [] then Some([])
    else
      var init, last := rows[..|rows| - 1], rows[|rows| - 1];
      match SslSeries(init, expiry)
      case None => None
      case Some(entries) =>
        match expiry(last.value)
        case None => None
        case Some(date) => Some(entries + [SslSample(last.instance, date)])
  }

  /** getDiskUsageForInstance and getRamUsageForInstance: the first entry's usage, else 0. */
  function UsageFor(rows: seq<UsageSample>, instance: string): (r: real)
    ensures forall i :: IsFirstMatch(UsageKeys(rows), instance, i) ==> r == rows[i].usage
    ensures (forall i :: 0 <= i < |rows| ==> rows[i].instance != instance) ==> r == 0.0
  {
    match Find(UsageKeys(rows), instance)
    case Some(i) => rows[i].usage
    case None => 0.0
  }

  const UptimeFallback := "Data tidak tersedia"

  /** getUptimeForInstance: the first entry's text, else "Data tidak tersedia". */
  function UptimeFor(rows: seq<UptimeSample>, instance: string): (r: string)
    ensures forall i :: IsFirstMatch(UptimeKeys(rows), instance, i) ==> r == rows[i].usage
    ensures (forall i :: 0 <= i < |rows| ==> rows[i].instance != instance) ==> r == UptimeFallback
  {
    match Find(UptimeKeys(rows), instance)
    case Some(i) => rows[i].usage
    case None => UptimeFallback
  }

  /** getNetworkUsageForInstance: the first entry's download and upload, else both 0. */
  function NetworkFor(rows: seq<NetworkSample>, instance: string): (r: Traffic)
    ensures forall i :: IsFirstMatch(NetworkKeys(rows), instance, i) ==>
      r == Traffic(rows[i].download, rows[i].upload)
    ensures (forall i :: 0 <= i < |rows| ==> rows[i].instance != instance) ==> r == Traffic(0.0, 0.0)
  {
    match Find(NetworkKeys(rows), instance)
    case Some(i) => Traffic(rows[i].download, rows[i].upload)
    case None => Traffic(0.0, 0.0)
  }

  /** The upload rate of the first upload entry for instance, or 0 when there is none. */
  function UploadFor(upload: seq<RawSample>, instance: string, parseFloat: string -> real): (r: real)
    ensures forall k :: IsFirstMatch(RawKeys(upload), instance, k) ==>
      r == parseFloat(upload[k].value) / BytesPerMegabyte
    ensures (forall k :: 0 <= k < |upload| ==> upload[k].instance != instance) ==> r == 0.0
  {
    match Find(RawKeys(upload), instance)
    case Some(k) => parseFloat(upload[k].value) / BytesPerMegabyte
    case None => 0.0
  }

  /** The network join of getNetworkUsage: one entry per download entry, in its order. */
  function JoinNetwork(download: seq<RawSample>, upload: seq<RawSample>, parseFloat: string -> real)
    : (r: seq<NetworkSample>)
    ensures |r| == |download|
    ensures forall i :: 0 <= i < |r| ==>
      && r[i].instance == download[i].instance
      && r[i].download == parseFloat(download[i].value) / BytesPerMegabyte
      && r[i].totalUsage == r[i].download + r[i].upload
    ensures forall i, k :: 0 <= i < |r| && IsFirstMatch(RawKeys(upload), download[i].instance, k) ==>
      r[i].upload == parseFloat(upload[k].value) / BytesPerMegabyte
    ensures forall i :: 0 <= i < |r| && download[i].instance !in RawKeys(upload) ==>
      r[i].upload == 0.0 && r[i].totalUsage == r[i].download
  {
    seq(|download|, i requires 0 <= i < |download| =>
      var instance := download[i].instance;
      var down := parseFloat(download[i].value) / BytesPerMegabyte;
      var up := UploadFor(upload, instance, parseFloat);
      NetworkSample(instance, down, up, down + up))
  }

  /**
   * Looking an instance up in the joined series gives the download of its
   * first download entry and the upload the join chose for it; an instance
   * the download series lacks reads as no traffic at all.
   */
  lemma JoinedTraffic(download: seq<RawSample>, upload: seq<RawSample>, parseFloat: string -> real,
                      instance: string)
    ensures instance !in RawKeys(download) ==>
      NetworkFor(JoinNetwork(download, upload, parseFloat), instance) == Traffic(0.0, 0.0)
    ensures forall i :: IsFirstMatch(RawKeys(download), instance, i) ==>
      NetworkFor(JoinNetwork(download, upload, parseFloat), instance)
        == Traffic(parseFloat(download[i].value) / BytesPerMegabyte, UploadFor(upload, instance, parseFloat))
  {
    var joined := JoinNetwork(download, upload, parseFloat);
    assert NetworkKeys(joined) == RawKeys(download);
  }
}

=== FILE: uptime.dfy ===
/**
 * Uptime rendering: a count of seconds becomes years, months, days, hours and
 * minutes on a fixed calendar (every year 365 days, every month 30 days);
 * leftover seconds are dropped.
 */
module Uptime {
  import Decimal

  const SecondsPerMinute: nat := 60
  const SecondsPerHour: nat := 3600
  const SecondsPerDay: nat := 24 * 3600
  const SecondsPerMonth: nat := 30 * 24 * 3600
  const SecondsPerYear: nat := 365 * 24 * 3600

  datatype Duration = Duration(years: nat, months: nat, days: nat, hours: nat, minutes: nat)

  /** Seconds in the part of a duration below one year. */
  function BelowYear(d: Duration): nat {
    d.months * SecondsPerMonth + d.days * SecondsPerDay + d.hours * SecondsPerHour
      + d.minutes * SecondsPerMinute
  }

  /** Seconds a duration stands for. */
  function TotalSeconds(d: Duration): nat {
    d.years * SecondsPerYear + BelowYear(d)
  }

  /**
   * d is the breakdown of s: it accounts for every second of s but the
   * leftover s % 60, and every unit below the year is smaller than the next
   * unit up (the months are what fits in the remainder of a year).
   */
  predicate IsBreakdown(s: nat, d: Duration) {
    && TotalSeconds(d) + s % SecondsPerMinute == s
    && BelowYear(d) + s % SecondsPerMinute < SecondsPerYear
    && d.days < 30 && d.hours < 24 && d.minutes < 60
  }

  /** The breakdown convertUptime prints. */
  function Breakdown(s: nat): (d: Duration)
    ensures IsBreakdown(s, d)
    ensures d.months <= 12
  {
    var inYear := s % SecondsPerYear;
    var inMonth := inYear % SecondsPerMonth;
    var inDay := inMonth % SecondsPerDay;
    var inHour := inDay % SecondsPerHour;
    var d := Duration(s / SecondsPerYear, inYear / SecondsPerMonth, inMonth / SecondsPerDay,
                      inDay / SecondsPerHour, inHour / SecondsPerMinute);
    ModOfMod(s, 60, 525600);
    ModOfMod(inYear, 60, 43200);
    ModOfMod(inMonth, 60, 1440);
    ModOfMod(inDay, 60, 60);
    d
  }

  /** Only one duration is a breakdown of s: Breakdown is the breakdown. */
  lemma BreakdownUnique(s: nat, d: Duration)
    requires IsBreakdown(s, d)
    ensures d == Breakdown(s)
  {
    var r := s % SecondsPerMinute;
    var e := Breakdown(s);
    var inHour := d.minutes * SecondsPerMinute + r;
    var inDay := d.hours * SecondsPerHour + inHour;
    var inMonth := d.days * SecondsPerDay + inDay;
    var inYear := d.months * SecondsPerMonth + inMonth;
    DivModUnique(s, SecondsPerYear, d.years, inYear);
    DivModUnique(inYear, SecondsPerMonth, d.months, inMonth);
    DivModUnique(inMonth, SecondsPerDay, d.days, inDay);
    DivModUnique(inDay, SecondsPerHour, d.hours, inHour);
    DivModUnique(inHour, SecondsPerMinute, d.minutes, r);
  }

  /** The leftover seconds never show: s and s rounded down to a whole minute break down alike. */
  lemma LeftoverSecondsIgnored(s: nat)
    ensures s % SecondsPerMinute <= s
    ensures Breakdown(s) == Breakdown(s - s % SecondsPerMinute)
  {
    var t := s - s % SecondsPerMinute;
    DivModUnique(t, SecondsPerMinute, s / SecondsPerMinute, 0);
    BreakdownUnique(t, Breakdown(s));
  }

  /** The text convertUptime returns for a breakdown. */
  function UptimeText(d: Duration): (text: string)
    ensures |text| > 0
  {
    Decimal.NatToString(d.years) + " Tahun " + Decimal.NatToString(d.months) + " Bulan "
      + Decimal.NatToString(d.days) + " hari " + Decimal.NatToString(d.hours) + " Jam "
      + Decimal.NatToString(d.minutes) + " Menit"
  }

  /** convertUptime: peel off each unit in turn, reducing the running seconds with %=. */
  method ConvertUptime(seconds: nat) returns (text: string)
    ensures text == UptimeText(Breakdown(seconds))
  {
    var s := seconds;
    var years := s / SecondsPerYear;
    s := s % SecondsPerYear;
    var months := s / SecondsPerMonth;
    s := s % SecondsPerMonth;
    var days := s / SecondsPerDay;
    s := s % SecondsPerDay;
    var hours := s / SecondsPerHour;
    s := s % SecondsPerHour;
    var minutes := s / SecondsPerMinute;
    var secs := s % SecondsPerMinute;  // computed, never printed
    text := UptimeText(Duration(years, months, days, hours, minutes));
  }

  lemma UptimeOfZero()
    ensures UptimeText(Breakdown(0)) == "0 Tahun 0 Bulan 0 hari 0 Jam 0 Menit"
  {
    BreakdownUnique(0, Duration(0, 0, 0, 0, 0));
    TextOfZeroDuration();
  }

  /** One day, one hour, one minute and one second: the second is dropped. */
  lemma UptimeOfDayHourMinuteSecond()
    ensures UptimeText(Breakdown(90061)) == "0 Tahun 0 Bulan 1 hari 1 Jam 1 Menit"
  {
    BreakdownUnique(90061, Duration(0, 0, 1, 1, 1));
    TextOfDayHourMinute();
  }

  lemma TextOfZeroDuration()
    ensures UptimeText(Duration(0, 0, 0, 0, 0)) == "0 Tahun 0 Bulan 0 hari 0 Jam 0 Menit"
  {
    assert Decimal.NatToString(0) == "0";
    assert "0" + " Tahun " == "0 Tahun ";
    assert "0 Tahun " + "0" == "0 Tahun 0";
    assert "0 Tahun 0" + " Bulan " == "0 Tahun 0 Bulan ";
    assert "0 Tahun 0 Bulan " + "0" == "0 Tahun 0 Bulan 0";
    assert "0 Tahun 0 Bulan 0" + " hari " == "0 Tahun 0 Bulan 0 hari ";
    assert "0 Tahun 0 Bulan 0 hari " + "0" == "0 Tahun 0 Bulan 0 hari 0";
    assert "0 Tahun 0 Bulan 0 hari 0" + " Jam " == "0 Tahun 0 Bulan 0 hari 0 Jam ";
    assert "0 Tahun 0 Bulan 0 hari 0 Jam " + "0" == "0 Tahun 0 Bulan 0 hari 0 Jam 0";
    assert "0 Tahun 0 Bulan 0 hari 0 Jam 0" + " Menit" == "0 Tahun 0 Bulan 0 hari 0 Jam 0 Menit";
  }

  lemma TextOfDayHourMinute()
    ensures UptimeText(Duration(0, 0, 1, 1, 1)) == "0 Tahun 0 Bulan 1 hari 1 Jam 1 Menit"
  {
    assert Decimal.NatToString(0) == "0";
    assert Decimal.NatToString(1) == "1";
    assert "0" + " Tahun " == "0 Tahun ";
    assert "0 Tahun " + "0" == "0 Tahun 0";
    assert "0 Tahun 0" + " Bulan " == "0 Tahun 0 Bulan ";
    assert "0 Tahun 0 Bulan " + "1" == "0 Tahun 0 Bulan 1";
    assert "0 Tahun 0 Bulan 1" + " hari " == "0 Tahun 0 Bulan 1 hari ";
    assert "0 Tahun 0 Bulan 1 hari " + "1" == "0 Tahun 0 Bulan 1 hari 1";
    assert "0 Tahun 0 Bulan 1 hari 1" + " Jam " == "0 Tahun 0 Bulan 1 hari 1 Jam ";
    assert "0 Tahun 0 Bulan 1 hari 1 Jam " + "1" == "0 Tahun 0 Bulan 1 hari 1 Jam 1";
    assert "0 Tahun 0 Bulan 1 hari 1 Jam 1" + " Menit" == "0 Tahun 0 Bulan 1 hari 1 Jam 1 Menit";
  }

  /** x = q * n + r with 0 <= r < n determines the quotient and the remainder. */
  lemma DivModUnique(x: int, n: int, q: int, r: int)
    requires n > 0 && 0 <= r < n && x == q * n + r
    ensures x / n == q && x % n == r
  {
    var q', r' := x / n, x % n;
    assert x == q' * n + r';
    if q > q' {
      MulMonotone(q - q', n);
    } else if q < q' {
      MulMonotone(q' - q, n);
    }
  }

  lemma {:induction false} MulMonotone(k: int, n: int)
    requires k >= 1 && n > 0
    ensures k * n >= n
    decreases k
  {
    if k > 1 {
      MulMonotone(k - 1, n);
      assert k * n == (k - 1) * n + n;
    }
  }

  /** Reducing modulo a multiple of a first does not change the remainder modulo a. */
  lemma ModOfMod(x: nat, a: nat, b: nat)
    requires a > 0 && b > 0
    ensures (x % (a * b)) % a == x % a
  {
    var r := x % (a * b);
    var q := x / (a * b);
    assert x == q * (a * b) + r;
    assert x == (q * b + r / a) * a + r % a;
    DivModUnique(x, a, q * b + r / a, r % a);
  }
}

=== FILE: wrappers.dfy ===
/** A value or nothing, shared by the other modules. */
module Wrappers {

  /** Either a value or nothing: the model's stand-in for JavaScript's `undefined`. */
  datatype Option<+T> = None | Some(value: T)
}
